=== FILE: README.md ===
# norwegianweather forecast client, modelled in Dafny

This project models the core of the `norwegianweather` Home Assistant
integration. That core is the API client in
`custom_components/norwegianweather/api.py` and the column builder
`massage_yrdata` of `custom_components/norwegianweather/testplot.py`. The
client talks to the met.no `locationforecast/2.0` service. It keeps the last
forecast payload, and decides from the server's `Expires` and
`Last-Modified` headers when to ask again. It reads units and values out of
the payload, and picks the time-series entries that go into the forecast
image.

The model is pure: one call of `async_get_data` is a step from one client
state to the next. The server's replies, the current time and the HTTP-date
codec are parameters. Python exceptions are values: `Result<T>` carries
either a value or the exception class, and each `try` resolves them where
the source catches them. A Python dict is an association list in insertion
order. The decoded JSON payload is the datatype `Json`.

| module | file | what it covers |
|---|---|---|
| `Base` | base.dfy | `Option`, `Result`, the exception classes, a `for` loop that stops at the first exception |
| `Dicts` | dicts.dfy | dict lookup, assignment and key order; what assigning a list of pairs builds |
| `JsonValues` | json.dfy | the payload, `.get` chains, iteration |
| `Text` | text.dfy | zero-padded decimal fields, splitting and joining |
| `Stamps` | stamps.dfy | datetimes, `strftime`/`strptime` with `%Y-%m-%dT%H:%M:%S%z` |
| `Bearings`, `CompassLaws` | bearings.dfy | `round` (half to even) and `get_compass` |
| `Forecast` | forecast.dfy | `get_unit`, `timeserie_values`, `timeserie_imagevalues` |
| `Urls` | urls.dfy | `get_url`, and a reader that recovers its parts |
| `ApiClient` | client.dfy | `api_wrapper`, `fetch_data`, `async_get_data`, runs of several calls |
| `ClientConfig` | config.dfy | `get_config`, `set_config` |
| `Selection` | selection.dfy | the walks of `test` and `test4plot` |
| `Massage` | massage.dfy | `massage_yrdata` |

The model follows the code as written. Some consequences of the code:

- The configured User-Agent (`API_USER_AGENT`) is not sent. `fetch_data`
  passes its header dict as the third positional argument, which is
  `data`, and `api_wrapper` never sends `data`. Apart from the
  `If-Modified-Since` of the conditional GET, the requests carry only the
  headers `aiohttp` adds itself. The model's `Request.headers` records the
  headers the code passes, not those `aiohttp` adds. See the second finding
  below.
- A failed fetch does not keep the last good payload. `api_wrapper` returns
  `None` after any caught exception, and `fetch_data` stores that `None`.
- The stamps are assigned one at a time. An answer whose `Last-Modified`
  header is missing has already stored its new `Expires`, and leaves the
  old `Last-Modified` in place.
- In `timeserie_values` the `instant` horizon is read first; `next_1_hours`
  is read only when `instant` has no value.
- `get_compass(11.25)` is `"N"`: 11.25 / 22.5 = 0.5 rounds half to even.
- The `cnt >= 6` guard in `test4plot` never fires, because `cnt` is never
  incremented there. Every entry is visited.

## Model

| member | source | states |
|---|---|---|
| Base.MapAllAt | custom_components/norwegianweather/api.py:237-244 | the parsing walk succeeds exactly when every element parses; then position `j` holds element `j`'s result; otherwise it raises what the first failing element raises |
| Base.MapAllPrefix | custom_components/norwegianweather/api.py:237-244 | once a prefix of the walk raises, the whole walk raises the same exception |
| Base.MapAllStep | custom_components/norwegianweather/api.py:237-244 | one more element extends the walk of the elements before it |
| Dicts.Get | custom_components/norwegianweather/api.py:180 | a lookup finds a value exactly when the key is in the dict |
| Dicts.Put | custom_components/norwegianweather/api.py:244 | `d[k] = v`: the key gets `v`; other keys keep their values; an existing key keeps its place and a new key goes last; keys stay distinct |
| Dicts.BuiltStep | custom_components/norwegianweather/api.py:244 | assigning pairs one by one builds a dict with each key once, in order of its first pair, exactly the keys assigned, and each key holding the value of its last pair |
| JsonValues.PyGetOr | custom_components/norwegianweather/api.py:180 | `j.get(key, default)` raises `AttributeError` exactly when `j` is not a dict, else gives the key's value or the default |
| JsonValues.GetPath | custom_components/norwegianweather/api.py:297 | a `.get` chain can only raise `AttributeError` |
| JsonValues.GetPathReach | custom_components/norwegianweather/api.py:297 | a `.get` chain answers the last key's value, or `None`, exactly when the path before it reaches a dict, and raises otherwise |
| JsonValues.ReachSnoc | custom_components/norwegianweather/api.py:297 | reaching one key further is a lookup in the dict reached so far, and reaches nothing when that is not a dict |
| JsonValues.NullPath | custom_components/norwegianweather/api.py:297 | any `.get` on `None` raises |
| JsonValues.Iterate | custom_components/norwegianweather/api.py:200 | a `for` loop over a number or `None` raises; over a list it walks the items |
| Text.PaddedRoundTrip | custom_components/norwegianweather/api.py:25 | a zero-padded `%Y`/`%m`/... field reads back as the number written, when it fits |
| Text.NatTextRoundTrip | custom_components/norwegianweather/api.py:288 | the decimal text of a rounded bearing reads back as that number |
| Text.SplitJoin | custom_components/norwegianweather/api.py:95-97 | splitting at `&` undoes joining parts that contain no `&` |
| Stamps.Parse | custom_components/norwegianweather/api.py:317-320 | `strptime` with `API_STRINGTIME` raises only `ValueError`, and any result it gives is aware |
| Stamps.Strptime | custom_components/norwegianweather/api.py:317-320 | `strptime` on a value that is not a string raises `TypeError`, and only then |
| Stamps.ClockRoundTrip | custom_components/norwegianweather/api.py:25 | the date and time fields written by `%Y-%m-%dT%H:%M:%S` read back unchanged |
| Stamps.OffsetRoundTrip | custom_components/norwegianweather/api.py:25 | the `%z` field written for any valid offset reads back as that offset |
| Stamps.FormatParseRoundTrip | custom_components/norwegianweather/api.py:25 | the date, time and zone fields of an aware datetime read back as that datetime |
| Stamps.Format | custom_components/norwegianweather/api.py:309-320 | an aware datetime written with `API_STRINGTIME` parses back to itself; a naive one is written without a zone, in 19 characters, and cannot be parsed back |
| Bearings.RoundHalfEven | custom_components/norwegianweather/api.py:383 | `round(x)` is within one half of `x`, and a tie goes to the even integer |
| Bearings.RoundUnique | custom_components/norwegianweather/api.py:383 | those two conditions fix the rounded value |
| Bearings.RoundShift | custom_components/norwegianweather/api.py:383 | shifting by an even whole number shifts the rounded value by the same amount |
| Bearings.GetCompass | custom_components/norwegianweather/api.py:363-385 | no bearing gives no label; any bearing gives one of the sixteen labels |
| CompassLaws.CompassSector | custom_components/norwegianweather/api.py:363-385 | a bearing strictly within 11.25 degrees of sector `i`'s centre gets sector `i`'s label |
| CompassLaws.CompassTie | custom_components/norwegianweather/api.py:363-385 | a bearing exactly between two sectors gets the even sector's label |
| CompassLaws.TurnShiftsSector | custom_components/norwegianweather/api.py:383 | a whole number of turns moves the rounded sector number by 16 per turn |
| CompassLaws.CompassPeriodic | custom_components/norwegianweather/api.py:363-385 | adding whole turns to a bearing does not change its label |
| CompassLaws.CompassCardinals | custom_components/norwegianweather/api.py:363-385 | bearings 0, 90, 180 and 270 get N, E, S and W |
| CompassLaws.CompassTieExamples | custom_components/norwegianweather/api.py:363-385 | the ties 11.25 and 348.75 get N, and 33.75 gets NE |
| Forecast.DisplayUnit | custom_components/norwegianweather/api.py:183 | `celsius` and `degrees` get their display signs; other values pass unchanged; a list or dict raises `TypeError` |
| Forecast.GetUnit | custom_components/norwegianweather/api.py:177-188 | the unit table's entry, `""` if missing, translated when `display` is set; `"test"` when the table cannot be reached |
| Forecast.UnitsPath | custom_components/norwegianweather/api.py:180 | the `properties.meta.units` chain raises exactly when the unit table cannot be reached |
| Forecast.DetailsPath | custom_components/norwegianweather/api.py:297-300 | a horizon's `details` lookup raises exactly when its details dict cannot be reached, else gives the value or `None` |
| Forecast.TimeserieValues | custom_components/norwegianweather/api.py:296-304 | `timeserie_values` never answers `None` |
| Forecast.ValuePrecedence | custom_components/norwegianweather/api.py:296-304 | the instant value wins when present; the next hour's value is used only otherwise; "N/A" only when neither has one; an unreachable horizon raises |
| Forecast.ImageValueOf | custom_components/norwegianweather/api.py:284-292 | one entry raises exactly when its lookup raises or a wind value is not a number (then `TypeError`); it is stored under the output name; a value other than wind is stored as found; a wind speed is stored as a nearest integer, ties to the even one |
| Forecast.BearingEntry | custom_components/norwegianweather/api.py:284-288 | a bearing within 11.25 degrees of sector `i`'s centre is stored as sector `i`'s label followed by a nearest whole number of degrees (ties to even) in parentheses |
| Forecast.ImageStepKeyed | custom_components/norwegianweather/api.py:284-292 | each attribute is stored under its output name: the bearing under the cardinal name, the rest under their own |
| Forecast.CollectSucceeds | custom_components/norwegianweather/api.py:283-292 | the loop of `timeserie_imagevalues` raises exactly when one of its attributes raises |
| Forecast.CollectKeys | custom_components/norwegianweather/api.py:283-292 | on success the loop adds the output names in attribute order |
| Forecast.CollectValues | custom_components/norwegianweather/api.py:283-292 | on success each output name holds its attribute's value, and keys no attribute writes are unchanged |
| Forecast.ImageKeysDistinct | custom_components/norwegianweather/api.py:41-54 | the six output names are the attribute names with the bearing replaced by the cardinal name, and no two coincide |
| Forecast.TimeserieImageValues | custom_components/norwegianweather/api.py:281-294 | `timeserie_imagevalues` succeeds exactly when all six entries do; it then holds six keys in fixed order, each with its entry's value |
| Urls.ParamOfName | custom_components/norwegianweather/api.py:95 | a `name=value` part splits back into its name and value |
| Urls.QueryIsJoin | custom_components/norwegianweather/api.py:95-97 | the query `get_url` writes is its `name=value` parts joined with `&` |
| Urls.GetUrl | custom_components/norwegianweather/api.py:89-98 | the URL is the forecast base, the data type, `?` and the `name=value` query parts joined with `&` |
| Urls.ParamsOfParts | custom_components/norwegianweather/api.py:95-97 | the query parts split into the pairs lat, lon and, when configured, altitude |
| Urls.QueryRoundTrip | custom_components/norwegianweather/api.py:95-97 | splitting the query gives back lat, lon and altitude in order, when no value contains `&` |
| Urls.UrlRoundTrip | custom_components/norwegianweather/api.py:89-98 | reading the URL gives back the data type and the lat, lon and altitude parameters in order |
| ApiClient.ImsValue | custom_components/norwegianweather/api.py:133-138 | the `If-Modified-Since` value exists exactly for a UTC `Last-Modified`; any other raises `ValueError` |
| ApiClient.PlainGet | custom_components/norwegianweather/api.py:147-175 | the plain GET is recorded; a stamp changes only to the parsed header of a response that has it, `Last-Modified` only after `Expires`; anything other than `None` returned is the decoded body |
| ApiClient.ApiWrapper | custom_components/norwegianweather/api.py:127-175 | at most two GETs to `url`; only the first may add `If-Modified-Since`; without `Last-Modified` exactly one plain GET; stamps move only on a plain response; returns the cache, the decoded body or `None` |
| ApiClient.FetchData | custom_components/norwegianweather/api.py:123-125 | the returned value becomes the payload; the code passes no User-Agent to any request; the first request may get `If-Modified-Since` and nothing else |
| ApiClient.AsyncGetData | custom_components/norwegianweather/api.py:100-121 | a naive `Expires` raises `TypeError`, and only then; a fresh cache is answered without a request; otherwise the data is fetched |
| ApiClient.FirstCallFetches | custom_components/norwegianweather/api.py:84-86 | a new client, with no `Expires`, fetches on its first call, with one plain request |
| ApiClient.NotModifiedKeepsCache | custom_components/norwegianweather/api.py:133-146 | a 304 to the conditional GET keeps payload and stamps after one request carrying only `If-Modified-Since` |
| ApiClient.FullAnswerStored | custom_components/norwegianweather/api.py:147-153 | a full answer to the plain GET replaces the payload and both stamps |
| ApiClient.MissingLastModifiedHalfUpdates | custom_components/norwegianweather/api.py:148-149 | an answer without `Last-Modified` stores the new `Expires`, keeps the old `Last-Modified` and drops the payload |
| ApiClient.FailureDropsPayload | custom_components/norwegianweather/api.py:131-175 | an exception anywhere in `api_wrapper` (the date formatting, the conditional GET, or the plain GET after a reply other than 304, including a missing stamp or an unreadable body) leaves `None` as the payload; otherwise the payload is the cached one after a 304, else the decoded body |
| ApiClient.AgentNotSent | custom_components/norwegianweather/api.py:123-128 | with no `Last-Modified` known, the code passes the single request no header at all |
| ApiClient.FetchDataWithAgent | custom_components/norwegianweather/api.py:22 | with the header dict passed as headers, every request carries the User-Agent |
| ApiClient.PlainGetIgnoresHeaders | custom_components/norwegianweather/api.py:147-153 | what the plain GET stores and returns does not depend on the headers it carries |
| ApiClient.WrapperIgnoresHeaders | custom_components/norwegianweather/api.py:127-175 | what `api_wrapper` stores and returns, and how many requests it sends, do not depend on `data` or `headers` |
| ApiClient.AgentOnlyAddsHeaders | custom_components/norwegianweather/api.py:123-125 | passing the User-Agent as headers changes no state, returned value or URL |
| ApiClient.Run | custom_components/norwegianweather/api.py:100-121 | a run without an exception answers once per call |
| ApiClient.FreshRun | custom_components/norwegianweather/api.py:103-111 | while the cache is fresh, calls send nothing, change nothing and answer the cached payload |
| ApiClient.UndecodableStored | custom_components/norwegianweather/api.py:103-153 | when the plain GET is reached (no `Last-Modified` known, or a UTC one answered with something other than 304), an answer with both stamps and an undecodable body stores both stamps and `None` as the payload |
| ApiClient.NullUntilExpiry | custom_components/norwegianweather/api.py:103-153 | when the plain GET is reached (no `Last-Modified` known, or a UTC one answered with something other than 304), an answer with a future `Expires` and an undecodable body makes every call until expiry answer `None` without a request |
| ApiClient.StuckOnNonUtcLastModified | custom_components/norwegianweather/api.py:133-138 | with a non-UTC `Last-Modified`, every expired call fails before sending and answers `None`, and the stamps never change |
| ClientConfig.GetConfig | custom_components/norwegianweather/api.py:306-313 | a dict of the two formatted stamps, keyed `expires` then `last_modified`, exactly when both are set; `None` otherwise |
| ClientConfig.SetConfig | custom_components/norwegianweather/api.py:315-322 | a dict whose `expires` parses stores it, then stores `last_modified` if that parses and keeps the old one if not; a dict whose `expires` does not parse, or a value that is not a dict, changes nothing; a stamp only ever changes to a parsed datetime |
| ClientConfig.ConfigRoundTrip | custom_components/norwegianweather/api.py:306-322 | restoring the saved config of aware stamps restores both exactly and nothing else |
| ClientConfig.NaiveExpiresNotRestored | custom_components/norwegianweather/api.py:306-322 | a naive `expires` is saved without a zone and restores nothing |
| ClientConfig.NaiveLastModifiedHalfRestored | custom_components/norwegianweather/api.py:306-322 | an aware `expires` with a naive `last_modified` restores only `expires` |
| ClientConfig.UnsetConfigRestoresNothing | custom_components/norwegianweather/api.py:306-322 | a client without both stamps saves `None`, and restoring `None` changes nothing |
| Selection.TimeseriesOf | custom_components/norwegianweather/api.py:191-194 | a payload that is not a dict raises `AttributeError`; a reachable list of entries is walked as is |
| Selection.Classify | custom_components/norwegianweather/api.py:203-208 | an entry raises only `AttributeError`, exactly when it or its `data` is not a dict or a next hour that is not `None` has no dict `summary`; it is picked exactly when `data.next_1_hours.summary.symbol_code` is present and not `None`, with that code; otherwise it has no symbol |
| Selection.WalkConcat | custom_components/norwegianweather/api.py:200-212 | walking two runs in a row, under any rule for one entry, is walking them joined |
| Selection.SymbolsStep | custom_components/norwegianweather/api.py:200-212 | one more entry extends the picks of the entries before it |
| Selection.SymbolsPrefix | custom_components/norwegianweather/api.py:200-212 | a prefix that raises makes the whole walk raise; otherwise its picks are a prefix of all picks |
| Selection.SelectSymbols | custom_components/norwegianweather/api.py:196-213 | at most six picks, the first six symbols in order; the picks are exactly those of the walk up to the entry where it stopped; an exception before the sixth pick is the walk's exception; six picks are returned exactly when the walk finds them before any entry raises, so an exception after the sixth pick is never raised |
| Selection.NotFullBeforeRaise | custom_components/norwegianweather/api.py:200-209 | a walk that ends, or raises, before its sixth pick never finds six picks in any prefix |
| Selection.Test | custom_components/norwegianweather/api.py:190-225 | the first six picks when there are any, exactly those of the walk up to where it stopped; six picks are saved exactly when the walk finds them before any entry raises, whatever the later entries hold; no pick, or no time series, raises `AttributeError` at the save |
| Selection.EntryOf | custom_components/norwegianweather/api.py:240-244 | an entry parses exactly when it is a dict whose time parses and whose `data.instant` is a dict; its key is that time's instant and its value the instant's `details`, or `None` when there are none; a failure is `AttributeError`, `TypeError` or `ValueError` |
| Selection.AssignAll | custom_components/norwegianweather/api.py:237-245 | the loop raises exactly when the parsing walk does, with the same exception; otherwise it builds the dict of the parsed pairs |
| Selection.PlotDetails | custom_components/norwegianweather/api.py:236-245 | every entry is visited, with no cap at six; each instant is kept once, in order of its first entry, holding the details of its last entry |
| Selection.Test4Plot | custom_components/norwegianweather/api.py:227-248 | `None` without a time series; otherwise the plot dict, its instants in order of first appearance, or the first entry's exception |
| Selection.PlotKeepsEveryInstant | custom_components/norwegianweather/api.py:236-245 | when every entry parses, every entry's instant is a key of the plot dict |
| Massage.Gather | custom_components/norwegianweather/testplot.py:53-57 | the first loop raises `AttributeError` exactly when some time's details are not a dict |
| Massage.AppendRowSpec | custom_components/norwegianweather/testplot.py:54-57 | one time's details append each value to its name's column, adding new names in order and leaving other columns alone |
| Massage.GatherValues | custom_components/norwegianweather/testplot.py:53-57 | each gathered column holds its name's values in time order; a name has a column exactly when some time holds it |
| Massage.GatherKeys | custom_components/norwegianweather/testplot.py:53-57 | the names come in order of first appearance |
| Massage.PadColumnsSpec | custom_components/norwegianweather/testplot.py:59-63 | padding keeps names and order, and lengthens each short column with zeros to the number of times |
| Massage.MassageYrData | custom_components/norwegianweather/testplot.py:51-65 | `massage_yrdata` raises `AttributeError` exactly when some time's details are not a dict; otherwise every column has at least one cell per time |
| Massage.MassageSpec | custom_components/norwegianweather/testplot.py:51-65 | one column per name in order of first appearance: the name's values in time order, then one zero per time lacking it |
| Massage.MisalignedPadding | custom_components/norwegianweather/testplot.py:59-63 | for two times, where only the second has `a`, the column of `a` is `[5.0, 0]`, so the first time shows the second time's value |
| Massage.AlignedColumn | custom_components/norwegianweather/testplot.py:51-65 | the intended column: one cell per time, that time's value or zero |
| Massage.AlignedColumns | custom_components/norwegianweather/testplot.py:51-65 | the intended result: one aligned column per name, in the given order |
| Massage.MassageAligned | custom_components/norwegianweather/testplot.py:51-65 | the intended `massage_yrdata` raises exactly when the code does |
| Massage.MassageAlignedSpec | custom_components/norwegianweather/testplot.py:51-65 | the intended result has the code's names in the code's order, and cell `j` of every column is time `j`'s value or zero |
| Massage.UniformNeedsNoPadding | custom_components/norwegianweather/testplot.py:59-63 | when every time holds a name, the code's column for it is the aligned one |

## Left out

- Networking, `async`/`await` and the 20-second timeout are not modelled. The server's replies to the two GETs of a call are the `Exchange` parameter. A timeout or transport failure is a `Raised` reply.
- `async_timeout.timeout(..., loop=...)` is assumed to accept its `loop` argument. Newer versions of that library reject it, which would make every call fail.
- `email.utils` is opaque. `parse_http_date` and `format_datetime(usegmt=True)` are the function fields of `HttpDates`. Only the `ValueError` for a non-UTC datetime is modelled.
- The current time is a parameter: an integer count of seconds on the UTC clock. Microseconds are not modelled.
- The headers `aiohttp` adds to a request on its own, its default `User-Agent` among them, are not modelled. `Request.headers` holds the headers the code passes.
- Logging is left out. It has no effect on the state.
- The image rendering is left out: `get_weather_symbol`, `create_weather_image`, `imagelist_combine`, the PIL calls and the file system. `Selection.Test` returns the picked entries and their symbols. `async_get_data` catches every exception of `test()`, so the model's step leaves `test()` out.
- Selection.Test: does not model the exceptions raised while a pick is rendered: `round` of a missing wind value (`TypeError`, api.py:288-290), the `strptime` of the pick's time (api.py:270), a unit that cannot be looked up (api.py:276), and the tar archive and image errors. Such an exception ends `test()` early, and `async_get_data` catches it. The model's walk goes on to the next entry.
- Selection.EntryOf: keys the plot dict by the instant, an integer. The source keeps the first entry's `datetime` for each instant as the key, with its UTC offset. Nothing in the modelled code reads that offset: `massage_yrdata` binds each key but uses the keys only for their number.
- Matplotlib plotting in testplot.py, the `__main__` script, the Home Assistant entities (camera, sensor, binary sensor) and const.py are not part of this model.
- Numbers are exact reals. Floating-point error and the `round(latitude, 4)` in the constructor are not modelled. `Site` holds the coordinates' text as `get_url` prints them.
- Booleans are not modelled in `Json`: the forecast payload carries none.
- Stamps.Parse: accepts only the zero-padded form of `%Y-%m-%dT%H:%M:%S` and a `%z` without seconds. Python's `strptime` also accepts single-digit fields and seconds in the offset. Letter case is ignored for the `T` separator only.
- Stamps.Format: writes the year with four digits. glibc's `strftime` writes years before 1000 with fewer digits, which Python's `%Y` then cannot read back.
- ApiClient.Run: stops at the first uncaught exception. After a `TypeError` from a naive `Expires`, real calls would keep raising. The model does not continue past it.

## Findings

| source | as written | input that shows it | evidently intended | confidence | as-written member | corrected member |
|---|---|---|---|---|---|---|
| custom_components/norwegianweather/testplot.py:59-63 | short columns get their zeros appended at the end | two times, where only the second has `a` = 5.0: the column is `[5.0, 0]` | each time's cell holds that time's value, or zero where the time lacks the name: `[0, 5.0]` | medium, not executed | Massage.MisalignedPadding | Massage.MassageAlignedSpec |
| custom_components/norwegianweather/api.py:123-128 | `fetch_data` passes the User-Agent dict as the third positional argument, which is `data`, and `data` is never sent | any fetch with no `Last-Modified`: the code passes the one request no header, so it carries only the default headers `aiohttp` adds | every request carries the configured User-Agent (api.py:22 says the service blocks requests without a specific one) | high, not executed | ApiClient.AgentNotSent | ApiClient.FetchDataWithAgent |

=== FILE: base.dfy ===
/** Shared vocabulary: optional values, Python's exception classes, and results
    that either carry a value or name the exception that was raised. */
module Base {

  /** Python's `None` or a value. */
  datatype Option<+T> = None | Some(value: T) {

    /** The value, or `default` when there is none. */
    function GetOr(default: T): T {
      match this
      case Some(v) => v
      case None => default
    }
  }

  /** The exception classes the modelled code raises or catches. */
  datatype PyError =
    | AttributeError   // `.get` on something that is not a dict
    | KeyError         // a missing response header
    | TypeError        // arithmetic, rounding or parsing applied to the wrong kind of value
    | ValueError       // text that does not match a date format, a non-UTC date for an HTTP header
    | TimeoutError     // the request timeout fired
    | ClientError      // aiohttp.ClientError or socket.gaierror
    | OtherError       // anything else, caught only by a broad handler

  /** The outcome of Python code that may raise. */
  datatype Result<+T> = Ok(value: T) | Err(error: PyError)

  /** A `for` loop that applies `f` to each element in order, keeping the
      results, and ends at the first element that raises. */
  function MapAll<A, B>(f: A -> Result<B>, xs: seq<A>): (r: Result<seq<B>>)
    ensures r.Ok? ==> |r.value| == |xs|
    decreases |xs|
  {
    if xs == [] then Ok([])
    else
      match MapAll(f, xs[..|xs| - 1])
      case Err(e) => Err(e)
      case Ok(ys) =>
        match f(xs[|xs| - 1])
        case Err(e) => Err(e)
        case Ok(y) => Ok(ys + [y])
  }

  /** The loop succeeds exactly when every element succeeds, and then holds
      each element's result at its position; otherwise it raises what the
      first element that fails raises. */
  lemma {:induction false} MapAllAt<A, B>(f: A -> Result<B>, xs: seq<A>)
    ensures MapAll(f, xs).Ok? <==> forall j | 0 <= j < |xs| :: f(xs[j]).Ok?
    ensures MapAll(f, xs).Ok? ==>
              forall j | 0 <= j < |xs| :: Ok(MapAll(f, xs).value[j]) == f(xs[j])
    ensures MapAll(f, xs).Err? ==>
              exists j | 0 <= j < |xs| ::
                f(xs[j]) == Err(MapAll(f, xs).error)
                && forall i | 0 <= i < j :: f(xs[i]).Ok?
    decreases |xs|
  {
    if xs != [] {
      var n := |xs| - 1;
      var front := xs[..n];
      MapAllAt(f, front);
      assert forall j | 0 <= j < n :: front[j] == xs[j];
      if MapAll(f, front).Err? {
        var j :| 0 <= j < n && f(front[j]) == Err(MapAll(f, front).error)
                 && forall i | 0 <= i < j :: f(front[i]).Ok?;
        assert f(xs[j]) == Err(MapAll(f, xs).error);
      } else if f(xs[n]).Err? {
        assert f(xs[n]) == Err(MapAll(f, xs).error);
      }
    }
  }

  /** A prefix that raises makes the whole loop raise the same. */
  lemma {:induction false} MapAllPrefix<A, B>(f: A -> Result<B>, xs: seq<A>, n: int)
    requires 0 <= n <= |xs|
    requires MapAll(f, xs[..n]).Err?
    ensures MapAll(f, xs) == MapAll(f, xs[..n])
    decreases |xs|
  {
    if n < |xs| {
      var front := xs[..|xs| - 1];
      assert front[..n] == xs[..n];
      MapAllPrefix(f, front, n);
    } else {
      assert xs[..n] == xs;
    }
  }

  /** One more element extends the loop over the elements before it. */
  lemma MapAllStep<A, B>(f: A -> Result<B>, xs: seq<A>, i: int)
    requires 0 <= i < |xs|
    ensures MapAll(f, xs[..i + 1])
            == match MapAll(f, xs[..i])
               case Err(e) => Err(e)
               case Ok(ys) =>
                 match f(xs[i])
                 case Err(e) => Err(e)
                 case Ok(y) => Ok(ys + [y])
  {
    assert xs[..i + 1][..i] == xs[..i];
  }
}

=== FILE: bearings.dfy ===
/** Wind bearings: Python's `round` on reals and `get_compass`. Bearings are
    exact reals here; floating-point error is not modelled. */
module Bearings {
  import opened Base

  /** `n` is a nearest integer to `x`, and the even one when `x` lies
      half-way between two. */
  predicate NearestEven(x: real, n: int)
  {
    && -0.5 <= x - n as real <= 0.5
    && (x - n as real == 0.5 || x - n as real == -0.5 ==> n % 2 == 0)
  }

  /** Python's `round(x)`: the nearest integer, ties going to the even one. */
  function RoundHalfEven(x: real): (r: int)
    ensures -0.5 <= x - r as real <= 0.5
    ensures x - r as real == 0.5 || x - r as real == -0.5 ==> r % 2 == 0
  {
    var f := x.Floor;
    var d := x - f as real;
    if d < 0.5 then f
    else if d > 0.5 then f + 1
    else if f % 2 == 0 then f
    else f + 1
  }

  /** Rounding half-to-even has exactly one possible answer. */
  lemma RoundUnique(x: real, r: int)
    requires NearestEven(x, r)
    ensures RoundHalfEven(x) == r
  {
  }

  /** Shifting by an even whole number `2 * m` shifts the rounded value by the
      same amount (an odd shift can move a tie to the other neighbour). */
  lemma RoundShift(x: real, m: int)
    ensures RoundHalfEven(x + (2 * m) as real) == RoundHalfEven(x) + 2 * m
  {
    var r := RoundHalfEven(x);
    assert (r + 2 * m) % 2 == r % 2;
    RoundUnique(x + (2 * m) as real, r + 2 * m);
  }

  /** `len(dirs)`, and the width in degrees of one sector,
      `360.0 / len(dirs)` = 22.5. */
  const Sectors := 16
  const SectorDegrees: real := 22.5

  /** The sixteen labels of `get_compass`, clockwise from north. */
  const Directions: seq<string> :=
    ["N", "NNE", "NE", "ENE", "E", "ESE", "SE", "SSE",
     "S", "SSW", "SW", "WSW", "W", "WNW", "NW", "NNW"]

  /** `get_compass(bearing)`: the label of the 22.5-degree sector nearest to
      the bearing, or `None` for no bearing. Python's `%` with a positive
      divisor is never negative, as Dafny's is. */
  function GetCompass(bearing: Option<real>): (lbl: Option<string>)
    ensures lbl.None? <==> bearing.None?
    ensures bearing.Some? ==> lbl.value in Directions
  {
    match bearing
    case None => None
    case Some(b) =>
      var ix := RoundHalfEven(b / SectorDegrees);
      Some(Directions[ix % Sectors])
  }
}

/** What `get_compass` promises: the label of the nearest sector, ties to
    the even sector, unchanged by whole turns. */
module CompassLaws {
  import opened Base
  import opened Bearings

  /** The label is read off the rounded sector number. */
  lemma CompassIndex(b: real, r: int)
    requires r == RoundHalfEven(b / SectorDegrees)
    ensures GetCompass(Some(b)) == Some(Directions[r % Sectors])
  {
  }

  /** Within 11.25 degrees of the centre of sector `i`, the label is sector `i`'s
      label, counting sectors modulo sixteen. */
  lemma {:induction false} CompassSector(b: real, i: int)
    requires -11.25 < b - 22.5 * i as real < 11.25
    ensures GetCompass(Some(b)) == Some(Directions[i % 16])
  {
    RoundUnique(b / 22.5, i);
  }

  /** Exactly half-way between two sectors the even-numbered one wins. */
  lemma {:induction false} CompassTie(i: int)
    ensures GetCompass(Some(22.5 * i as real + 11.25))
            == Some(Directions[(if i % 2 == 0 then i else i + 1) % 16])
  {
    var x := (22.5 * i as real + 11.25) / SectorDegrees;
    assert x == i as real + 0.5 by {
      assert 22.5 * i as real + 11.25 == 22.5 * (i as real + 0.5);
    }
    if i % 2 == 0 {
      assert x - i as real == 0.5;
      RoundUnique(x, i);
    } else {
      assert x - (i + 1) as real == -0.5 && (i + 1) % 2 == 0;
      RoundUnique(x, i + 1);
    }
  }

  /** A turn of `k * 360` degrees moves the rounded sector number by `16 * k`. */
  lemma {:induction false} TurnShiftsSector(b: real, k: int)
    ensures RoundHalfEven((b + 360.0 * k as real) / SectorDegrees) == RoundHalfEven(b / SectorDegrees) + 16 * k
  {
    var x := b / SectorDegrees;
    var y := (b + 360.0 * k as real) / SectorDegrees;
    assert y == x + (2 * (8 * k)) as real;
    RoundShift(x, 8 * k);
  }

  lemma ModShift(r: int, k: int)
    ensures (r + 16 * k) % 16 == r % 16
  {
  }

  /** A full turn does not change the label. */
  lemma {:induction false} CompassPeriodic(b: real, k: int)
    ensures GetCompass(Some(b + 360.0 * k as real)) == GetCompass(Some(b))
  {
    var r := RoundHalfEven(b / SectorDegrees);
    TurnShiftsSector(b, k);
    ModShift(r, k);
    CompassIndex(b, r);
    CompassIndex(b + 360.0 * k as real, r + 16 * k);
  }

  /** The four cardinal bearings get the four cardinal labels. */
  lemma CompassCardinals()
    ensures GetCompass(Some(0.0)) == Some("N") && GetCompass(Some(90.0)) == Some("E")
    ensures GetCompass(Some(180.0)) == Some("S") && GetCompass(Some(270.0)) == Some("W")
  {
    CompassSector(0.0, 0);
    CompassSector(90.0, 4);
    CompassSector(180.0, 8);
    CompassSector(270.0, 12);
    assert Directions[0] == "N" && Directions[4] == "E";
    assert Directions[8] == "S" && Directions[12] == "W";
  }

  /** The ties 11.25 (sectors 0 and 1), 348.75 (sectors 15 and 16) and
      33.75 (sectors 1 and 2) go to N, N and NE. */
  lemma CompassTieExamples()
    ensures GetCompass(Some(11.25)) == Some("N") && GetCompass(Some(348.75)) == Some("N")
    ensures GetCompass(Some(33.75)) == Some("NE")
  {
    TieBetweenNAndNne();
    TieBetweenNnwAndN();
    TieBetweenNneAndNe();
  }

  lemma TieBetweenNAndNne()
    ensures GetCompass(Some(11.25)) == Some("N")
  {
    CompassTie(0);
    assert 22.5 * 0 as real + 11.25 == 11.25;
    assert Directions[0] == "N";
  }

  lemma TieBetweenNnwAndN()
    ensures GetCompass(Some(348.75)) == Some("N")
  {
    CompassTie(15);
    assert 22.5 * 15 as real + 11.25 == 348.75 && (15 + 1) % 16 == 0;
    assert Directions[0] == "N";
  }

  lemma TieBetweenNneAndNe()
    ensures GetCompass(Some(33.75)) == Some("NE")
  {
    CompassTie(1);
    assert 22.5 * 1 as real + 11.25 == 33.75;
    assert Directions[2] == "NE";
  }
}

=== FILE: client.dfy ===
/** The API client's cache: the last payload, and the `Expires` and
    `Last-Modified` stamps that decide when to ask the server again. One call
    of `async_get_data` is a pure step from one client state to the next; the
    network, the clock and the HTTP-date codec are parameters. */
module ApiClient {
  import opened Base
  import opened Dicts
  import opened JsonValues
  import opened Stamps
  import opened Urls

  /** The User-Agent value the yr terms of service ask for. */
  const UserAgent := "https://github.com/tmjo"

  const ImsHeader := "If-Modified-Since"

  /** The client's state: where it asks for, the last payload (`Null` for
      `None`), and the freshness stamps. */
  datatype Client = Client(site: Site, yrdata: Json,
                           expires: Option<DateTime>, lastModified: Option<DateTime>)

  /** A client as constructed: no payload, nothing known about freshness. */
  function NewClient(site: Site): Client
  {
    Client(site, Null, None, None)
  }

  /** The HTTP-date codec of the `email.utils` module, left opaque:
      `parse` is `parse_http_date` (which turns every failure into `None`),
      `format` is `format_datetime(d, usegmt=True)` for a UTC datetime. */
  datatype HttpDates = HttpDates(parse: string -> Option<DateTime>, format: DateTime -> string)

  /** The `If-Modified-Since` value: `format_datetime` with `usegmt=True`
      raises `ValueError` for any datetime whose zone is not UTC, naive ones
      included. */
  function ImsValue(dates: HttpDates, lastModified: DateTime): (r: Result<string>)
    ensures r.Ok? <==> lastModified.offset == Some(0)
    ensures r.Err? ==> r.error == ValueError
    ensures r.Ok? ==> r.value == dates.format(lastModified)
  {
    if lastModified.offset == Some(0) then Ok(dates.format(lastModified)) else Err(ValueError)
  }

  /** What reading the body as JSON gives: a value, or the exception it raised. */
  datatype Body = Decoded(json: Json) | Undecodable(error: PyError)

  /** What the server (or the transport) answers one GET with: an exception,
      or a response with its status, its `Expires` and `Last-Modified`
      headers (if present) and its body. */
  datatype Reply =
    | Raised(error: PyError)
    | Response(status: int, expiresHeader: Option<string>,
               lastModifiedHeader: Option<string>, body: Body)

  /** A GET that was sent: the URL and the headers the code passes to it.
      The headers `aiohttp` adds on its own (its default `User-Agent` among
      them) are not recorded. */
  datatype Request = Request(url: string, headers: Dict<string, string>)

  /** The replies the two GETs of one `api_wrapper` call would get: the
      conditional one (only sent when `Last-Modified` is known) and the plain one. */
  datatype Exchange = Exchange(conditional: Reply, plain: Reply)

  /** The client after a call, what the call returned, and the requests it sent. */
  datatype Outcome = Outcome(client: Client, returned: Json, sent: seq<Request>)

  /** The plain GET of `api_wrapper` and everything after it: the stamps are
      read from the headers one at a time (a missing header raises `KeyError`
      after the ones before it were stored), then the body is decoded. Every
      exception is caught and the call returns `None`. */
  function PlainGet(c: Client, dates: HttpDates, req: Request, reply: Reply, before: seq<Request>): (o: Outcome)
    ensures o.sent == before + [req]
    ensures o.client.site == c.site && o.client.yrdata == c.yrdata
    ensures o.client.expires != c.expires ==>
              reply.Response? && reply.expiresHeader.Some?
              && o.client.expires == dates.parse(reply.expiresHeader.value)
    ensures o.client.lastModified != c.lastModified ==>
              reply.Response? && reply.expiresHeader.Some? && reply.lastModifiedHeader.Some?
              && o.client.lastModified == dates.parse(reply.lastModifiedHeader.value)
    ensures o.returned != Null ==> reply.Response? && reply.body == Decoded(o.returned)
  {
    var sent := before + [req];
    match reply
    case Raised(_) => Outcome(c, Null, sent)
    case Response(_, exp, lm, body) =>
      if exp.None? then Outcome(c, Null, sent)
      else
        var c1 := c.(expires := dates.parse(exp.value));
        if lm.None? then Outcome(c1, Null, sent)
        else
          var c2 := c1.(lastModified := dates.parse(lm.value));
          match body
          case Decoded(j) => Outcome(c2, j, sent)
          case Undecodable(_) => Outcome(c2, Null, sent)
  }

  /** `api_wrapper(method, url, data, headers)`. When `Last-Modified` is known
      a conditional GET goes first, carrying `headers` plus
      `If-Modified-Since`; a 304 answer returns the cached payload and changes
      nothing. Otherwise a plain GET with `headers` alone follows. `data` is
      accepted and never sent. The payload itself is not stored here. */
  function ApiWrapper(c: Client, dates: HttpDates, url: string, data: Dict<string, string>,
                      headers: Dict<string, string>, ex: Exchange): (o: Outcome)
    ensures o.client.site == c.site && o.client.yrdata == c.yrdata
    ensures |o.sent| <= 2
    ensures forall i | 0 <= i < |o.sent| :: o.sent[i].url == url
    // a request carries the caller's headers, plus If-Modified-Since on the first of two
    ensures forall i | 0 <= i < |o.sent| ::
              o.sent[i].headers == headers
              || (c.lastModified.Some? && i == 0
                  && o.sent[i].headers == Put(headers, ImsHeader, dates.format(c.lastModified.value)))
    // without a usable Last-Modified, exactly one plain request goes out
    ensures c.lastModified.None? ==> o.sent == [Request(url, headers)]
    // the stamps move only on a plain response that carried them
    ensures o.client.expires != c.expires ==>
              ex.plain.Response? && ex.plain.expiresHeader.Some?
              && o.client.expires == dates.parse(ex.plain.expiresHeader.value)
    ensures o.client.lastModified != c.lastModified ==>
              ex.plain.Response? && ex.plain.expiresHeader.Some? && ex.plain.lastModifiedHeader.Some?
              && o.client.lastModified == dates.parse(ex.plain.lastModifiedHeader.value)
    // the call returns the cached payload (after a 304), a decoded body, or None
    ensures o.returned == c.yrdata || o.returned == Null
            || (ex.plain.Response? && ex.plain.body == Decoded(o.returned))
  {
    if c.lastModified.Some? then
      match ImsValue(dates, c.lastModified.value)
      case Err(_) => Outcome(c, Null, [])
      case Ok(ims) =>
        var cond := Request(url, Put(headers, ImsHeader, ims));
        match ex.conditional
        case Raised(_) => Outcome(c, Null, [cond])
        case Response(status, _, _, _) =>
          if status == 304 then Outcome(c, c.yrdata, [cond])
          else PlainGet(c, dates, Request(url, headers), ex.plain, [cond])
    else PlainGet(c, dates, Request(url, headers), ex.plain, [])
  }

  /** `fetch_data`: the User-Agent dict lands in the `data` parameter, so the
      code passes no header but (at most) `If-Modified-Since`, and the
      configured User-Agent is not sent; the returned value becomes the
      payload, `None` after any failure. */
  function FetchData(c: Client, dates: HttpDates, ex: Exchange): (o: Outcome)
    ensures o.client.yrdata == o.returned
    ensures o.client.site == c.site
    ensures 1 <= |o.sent| <= 2 || (o.sent == [] && o.returned == Null)
    ensures forall i | 0 <= i < |o.sent| :: o.sent[i].url == GetUrl(c.site, "complete")
    // the code passes no User-Agent: the first request may get If-Modified-Since, nothing else
    ensures forall i | 0 <= i < |o.sent| ::
              "User-Agent" !in Keys(o.sent[i].headers)
              && (o.sent[i].headers == []
                  || (i == 0 && c.lastModified.Some?
                      && o.sent[i].headers == [(ImsHeader, dates.format(c.lastModified.value))]))
  {
    var o := ApiWrapper(c, dates, GetUrl(c.site, "complete"), [("User-Agent", UserAgent)], [], ex);
    Outcome(o.client.(yrdata := o.returned), o.returned, o.sent)
  }

  /** With no `Last-Modified` known, `fetch_data` sends one request and the
      code passes it no header at all: the configured User-Agent the server
      requires is not among them. */
  lemma AgentNotSent(c: Client, dates: HttpDates, ex: Exchange)
    requires c.lastModified.None?
    ensures FetchData(c, dates, ex).sent == [Request(GetUrl(c.site, "complete"), [])]
  {
  }

  /** `fetch_data` as evidently intended: the User-Agent dict passed as the
      `headers` argument, so that every request carries it. */
  function FetchDataWithAgent(c: Client, dates: HttpDates, ex: Exchange): (o: Outcome)
    ensures o.client.yrdata == o.returned
    ensures forall i | 0 <= i < |o.sent| :: Get(o.sent[i].headers, "User-Agent") == Some(UserAgent)
  {
    var o := ApiWrapper(c, dates, GetUrl(c.site, "complete"), [], [("User-Agent", UserAgent)], ex);
    Outcome(o.client.(yrdata := o.returned), o.returned, o.sent)
  }

  /** The plain GET's effect does not depend on the headers it carries. */
  lemma PlainGetIgnoresHeaders(c: Client, dates: HttpDates, r1: Request, r2: Request, reply: Reply, b1: seq<Request>, b2: seq<Request>)
    ensures PlainGet(c, dates, r1, reply, b1).client == PlainGet(c, dates, r2, reply, b2).client
    ensures PlainGet(c, dates, r1, reply, b1).returned == PlainGet(c, dates, r2, reply, b2).returned
  {
  }

  /** What `api_wrapper` does to the client and returns does not depend on
      `data` or `headers`, and neither does the number of requests or where
      they go. */
  lemma WrapperIgnoresHeaders(c: Client, dates: HttpDates, url: string,
                              d1: Dict<string, string>, h1: Dict<string, string>,
                              d2: Dict<string, string>, h2: Dict<string, string>, ex: Exchange)
    ensures ApiWrapper(c, dates, url, d1, h1, ex).client == ApiWrapper(c, dates, url, d2, h2, ex).client
    ensures ApiWrapper(c, dates, url, d1, h1, ex).returned == ApiWrapper(c, dates, url, d2, h2, ex).returned
    ensures |ApiWrapper(c, dates, url, d1, h1, ex).sent| == |ApiWrapper(c, dates, url, d2, h2, ex).sent|
  {
    if c.lastModified.Some? && ImsValue(dates, c.lastModified.value).Ok? {
      var ims := ImsValue(dates, c.lastModified.value).value;
      var q1 := Request(url, Put(h1, ImsHeader, ims));
      var q2 := Request(url, Put(h2, ImsHeader, ims));
      if ex.conditional.Response? && ex.conditional.status != 304 {
        PlainGetIgnoresHeaders(c, dates, Request(url, h1), Request(url, h2), ex.plain, [q1], [q2]);
      }
    } else if c.lastModified.None? {
      PlainGetIgnoresHeaders(c, dates, Request(url, h1), Request(url, h2), ex.plain, [], []);
    }
  }

  /** Sending the User-Agent changes nothing but the headers: the client,
      the returned payload and the requested URLs are those of `fetch_data`. */
  lemma AgentOnlyAddsHeaders(c: Client, dates: HttpDates, ex: Exchange)
    ensures FetchDataWithAgent(c, dates, ex).client == FetchData(c, dates, ex).client
    ensures FetchDataWithAgent(c, dates, ex).returned == FetchData(c, dates, ex).returned
    ensures |FetchDataWithAgent(c, dates, ex).sent| == |FetchData(c, dates, ex).sent|
    ensures forall i | 0 <= i < |FetchData(c, dates, ex).sent| ::
              FetchDataWithAgent(c, dates, ex).sent[i].url == FetchData(c, dates, ex).sent[i].url
  {
    WrapperIgnoresHeaders(c, dates, GetUrl(c.site, "complete"),
                          [], [("User-Agent", UserAgent)], [("User-Agent", UserAgent)], [], ex);
  }

  /** The cached payload is still good at `now` (seconds on the UTC clock):
      `Expires` is known, aware, and not yet passed. */
  predicate Fresh(c: Client, now: int)
  {
    c.expires.Some? && Instant(c.expires.value).Some? && now <= Instant(c.expires.value).value
  }

  /** `async_get_data` at time `now`: fetch when nothing is known about
      expiry or it has passed, else answer from the cache. Comparing the
      aware clock with a naive `Expires` raises `TypeError`, which nothing
      catches. The image rendering that follows a successful call swallows
      its own exceptions and leaves the state alone, so it is not part of
      the step. */
  function AsyncGetData(c: Client, now: int, dates: HttpDates, ex: Exchange): (r: Result<Outcome>)
    ensures r.Err? <==> c.expires.Some? && c.expires.value.offset.None?
    ensures r.Err? ==> r.error == TypeError
    ensures r.Ok? ==> r.value.returned == r.value.client.yrdata && r.value.client.site == c.site
    ensures Fresh(c, now) ==> r == Ok(Outcome(c, c.yrdata, []))
    ensures r.Ok? && !Fresh(c, now) ==> r.value == FetchData(c, dates, ex)
  {
    if c.expires.None? then Ok(FetchData(c, dates, ex))
    else match Instant(c.expires.value)
      case None => Err(TypeError)
      case Some(t) => if now > t then Ok(FetchData(c, dates, ex)) else Ok(Outcome(c, c.yrdata, []))
  }

  /** A newly constructed client has no `Expires`, so its first call fetches,
      and with no `Last-Modified` that is one plain request. */
  lemma FirstCallFetches(site: Site, now: int, dates: HttpDates, ex: Exchange)
    ensures AsyncGetData(NewClient(site), now, dates, ex) == Ok(FetchData(NewClient(site), dates, ex))
    ensures FetchData(NewClient(site), dates, ex).sent == [Request(GetUrl(site, "complete"), [])]
  {
  }

  /** A 304 to the conditional GET keeps the cache and the stamps exactly as
      they were, after a single request carrying only `If-Modified-Since`. */
  lemma NotModifiedKeepsCache(c: Client, dates: HttpDates, ex: Exchange)
    requires c.lastModified.Some? && c.lastModified.value.offset == Some(0)
    requires ex.conditional.Response? && ex.conditional.status == 304
    ensures FetchData(c, dates, ex)
            == Outcome(c, c.yrdata, [Request(GetUrl(c.site, "complete"),
                                             [(ImsHeader, dates.format(c.lastModified.value))])])
  {
  }

  /** A full answer to the plain GET replaces the payload and both stamps. */
  lemma FullAnswerStored(c: Client, dates: HttpDates, ex: Exchange, exp: string, lm: string, j: Json)
    requires ex.plain.Response? && ex.plain.expiresHeader == Some(exp)
    requires ex.plain.lastModifiedHeader == Some(lm) && ex.plain.body == Decoded(j)
    requires c.lastModified.Some? ==>
               c.lastModified.value.offset == Some(0)
               && ex.conditional.Response? && ex.conditional.status != 304
    ensures FetchData(c, dates, ex).client
            == c.(yrdata := j, expires := dates.parse(exp), lastModified := dates.parse(lm))
    ensures FetchData(c, dates, ex).returned == j
  {
  }

  /** An answer without `Last-Modified` stores the new `Expires` but keeps
      the old `Last-Modified`, and drops the payload. */
  lemma MissingLastModifiedHalfUpdates(c: Client, dates: HttpDates, ex: Exchange, exp: string)
    requires ex.plain.Response? && ex.plain.expiresHeader == Some(exp)
    requires ex.plain.lastModifiedHeader.None?
    requires c.lastModified.Some? ==>
               c.lastModified.value.offset == Some(0)
               && ex.conditional.Response? && ex.conditional.status != 304
    ensures FetchData(c, dates, ex).client
            == c.(yrdata := Null, expires := dates.parse(exp))
  {
  }

  /** The plain GET fails: it raises, or its response lacks a stamp
      (`KeyError`), or its body cannot be read as JSON. */
  predicate PlainFails(reply: Reply)
  {
    reply.Raised? || reply.expiresHeader.None? || reply.lastModifiedHeader.None? || reply.body.Undecodable?
  }

  /** Some exception ends the `try` of `api_wrapper`: with a known
      `Last-Modified`, `format_datetime` or the conditional GET can raise
      first, and a reply other than 304 leads on to the plain GET. */
  predicate FetchFails(c: Client, ex: Exchange)
  {
    if c.lastModified.None? then PlainFails(ex.plain)
    else c.lastModified.value.offset != Some(0) || ex.conditional.Raised?
         || (ex.conditional.status != 304 && PlainFails(ex.plain))
  }

  /** A failed fetch (an exception at any point of `api_wrapper`) leaves the
      client holding `None` instead of the last good payload; a fetch that
      does not fail holds the cached payload after a 304 and the decoded
      body otherwise. */
  lemma FailureDropsPayload(c: Client, dates: HttpDates, ex: Exchange)
    ensures FetchFails(c, ex) ==>
              FetchData(c, dates, ex).client.yrdata == Null && FetchData(c, dates, ex).returned == Null
    ensures !FetchFails(c, ex) ==>
              FetchData(c, dates, ex).returned
              == if c.lastModified.Some? && ex.conditional.status == 304 then c.yrdata
                 else ex.plain.body.json
  {
  }

  /** Several calls of `async_get_data` in a row, each at its own time and
      with its own server replies; stops at the first uncaught exception. */
  datatype Trace = Trace(client: Client, returned: seq<Json>, sent: seq<Request>)

  function Run(c: Client, dates: HttpDates, calls: seq<(int, Exchange)>): (r: Result<Trace>)
    ensures r.Ok? ==> |r.value.returned| == |calls|
    decreases |calls|
  {
    if calls == [] then Ok(Trace(c, [], []))
    else match AsyncGetData(c, calls[0].0, dates, calls[0].1)
      case Err(e) => Err(e)
      case Ok(o) =>
        match Run(o.client, dates, calls[1..])
        case Err(e) => Err(e)
        case Ok(t) => Ok(Trace(t.client, [o.returned] + t.returned, o.sent + t.sent))
  }

  /** While the cache is fresh, calls send nothing and keep answering the
      cached payload. */
  lemma {:induction false} FreshRun(c: Client, dates: HttpDates, calls: seq<(int, Exchange)>)
    requires forall i | 0 <= i < |calls| :: Fresh(c, calls[i].0)
    ensures Run(c, dates, calls).Ok?
    ensures Run(c, dates, calls).value.client == c
    ensures Run(c, dates, calls).value.sent == []
    ensures forall i | 0 <= i < |calls| :: Run(c, dates, calls).value.returned[i] == c.yrdata
    decreases |calls|
  {
    if calls != [] {
      assert Fresh(c, calls[0].0);
      FreshRun(c, dates, calls[1..]);
      forall i | 0 <= i < |calls[1..]| ensures Fresh(c, calls[1..][i].0) {
        assert calls[1..][i] == calls[i + 1];
      }
    }
  }

  /** An answer with future `Expires` but an unreadable body leaves the client
      with no payload, and every call until that instant answers `None`
      without asking the server again. */
  lemma NullUntilExpiry(c: Client, dates: HttpDates, ex: Exchange, exp: string, lm: string, e: DateTime,
                        calls: seq<(int, Exchange)>)
    requires c.lastModified.Some? ==>
               c.lastModified.value.offset == Some(0) && ex.conditional.Response? && ex.conditional.status != 304
    requires ex.plain.Response? && ex.plain.expiresHeader == Some(exp)
    requires ex.plain.lastModifiedHeader == Some(lm) && ex.plain.body.Undecodable?
    requires dates.parse(exp) == Some(e) && e.offset.Some?
    requires forall i | 0 <= i < |calls| :: calls[i].0 <= Instant(e).value
    ensures FetchData(c, dates, ex).returned == Null
    ensures Run(FetchData(c, dates, ex).client, dates, calls).Ok?
    ensures Run(FetchData(c, dates, ex).client, dates, calls).value.sent == []
    ensures forall i | 0 <= i < |calls| :: Run(FetchData(c, dates, ex).client, dates, calls).value.returned[i] == Null
  {
    UndecodableStored(c, dates, ex, exp, lm);
    var c1 := FetchData(c, dates, ex).client;
    forall i | 0 <= i < |calls| ensures Fresh(c1, calls[i].0) {
    }
    FreshRun(c1, dates, calls);
  }

  /** An answer with both stamps but an undecodable body stores the stamps
      and no payload. */
  lemma UndecodableStored(c: Client, dates: HttpDates, ex: Exchange, exp: string, lm: string)
    requires c.lastModified.Some? ==>
               c.lastModified.value.offset == Some(0) && ex.conditional.Response? && ex.conditional.status != 304
    requires ex.plain.Response? && ex.plain.expiresHeader == Some(exp)
    requires ex.plain.lastModifiedHeader == Some(lm) && ex.plain.body.Undecodable?
    ensures FetchData(c, dates, ex).client
            == c.(yrdata := Null, expires := dates.parse(exp), lastModified := dates.parse(lm))
    ensures FetchData(c, dates, ex).returned == Null
  {
  }

  /** A `Last-Modified` that is not UTC (a naive one, or one restored with
      another offset) makes every fetch fail before anything is sent, and
      since the stamps then never change, every later call fails the same way. */
  lemma {:induction false} StuckOnNonUtcLastModified(c: Client, dates: HttpDates, calls: seq<(int, Exchange)>)
    requires c.lastModified.Some? && c.lastModified.value.offset != Some(0)
    requires c.expires.Some? ==> c.expires.value.offset.Some?
    requires forall i | 0 <= i < |calls| :: !Fresh(c, calls[i].0)
    ensures Run(c, dates, calls).Ok?
    ensures Run(c, dates, calls).value.sent == []
    ensures forall i | 0 <= i < |calls| :: Run(c, dates, calls).value.returned[i] == Null
    ensures Run(c, dates, calls).value.client.expires == c.expires
    ensures Run(c, dates, calls).value.client.lastModified == c.lastModified
    decreases |calls|
  {
    if calls != [] {
      var o := AsyncGetData(c, calls[0].0, dates, calls[0].1).value;
      assert o == Outcome(c.(yrdata := Null), Null, []);
      var c1 := o.client;
      forall i | 0 <= i < |calls[1..]| ensures !Fresh(c1, calls[1..][i].0) {
        assert calls[1..][i] == calls[i + 1];
      }
      StuckOnNonUtcLastModified(c1, dates, calls[1..]);
    }
  }
}

=== FILE: config.dfy ===
/** Saving the freshness stamps into the integration's config entry and
    restoring them from it. */
module ClientConfig {
  import opened Base
  import opened Dicts
  import opened JsonValues
  import opened Stamps
  import opened ApiClient

  const ExpiresKey := "expires"
  const LastModifiedKey := "last_modified"

  /** `get_config`: both stamps as `%Y-%m-%dT%H:%M:%S%z` text, or `None` when
      either is missing (`None.strftime` raises `AttributeError`, which is
      caught). A naive stamp is written without a zone. */
  function GetConfig(c: Client): (r: Json)
    ensures r.Obj? <==> c.expires.Some? && c.lastModified.Some?
    ensures !r.Obj? ==> r == Null
    ensures r.Obj? ==> KeyList(r.fields) == [ExpiresKey, LastModifiedKey]
    ensures r.Obj? ==> Get(r.fields, ExpiresKey) == Some(Str(Format(c.expires.value)))
                       && Get(r.fields, LastModifiedKey) == Some(Str(Format(c.lastModified.value)))
  {
    if c.expires.Some? && c.lastModified.Some? then
      Obj([(ExpiresKey, Str(Format(c.expires.value))),
           (LastModifiedKey, Str(Format(c.lastModified.value)))])
    else Null
  }

  /** `set_config(config)`: `expires` is read and stored, then
      `last_modified`; the first exception (`AttributeError`, `TypeError` or
      `ValueError`) is caught and ends the update, so a failure on the second
      key leaves the first one stored. */
  function SetConfig(c: Client, config: Json): (r: Client)
    ensures r.site == c.site && r.yrdata == c.yrdata
    ensures !config.Obj? ==> r == c
    // a stamp that changes is an aware one read from the config
    ensures r.expires != c.expires ==>
              config.Obj? && r.expires.Some?
              && Strptime(PyGet(config, ExpiresKey).value) == Ok(r.expires.value)
    // last_modified is only taken once expires has been
    ensures r.lastModified != c.lastModified ==>
              config.Obj? && Strptime(PyGet(config, ExpiresKey).value).Ok?
              && r.expires == Some(Strptime(PyGet(config, ExpiresKey).value).value)
              && r.lastModified.Some?
              && Strptime(PyGet(config, LastModifiedKey).value) == Ok(r.lastModified.value)
    // a dict whose `expires` parses stores it; its `last_modified` is then
    // stored when it parses, and the old one kept when it does not
    ensures config.Obj? && Strptime(PyGet(config, ExpiresKey).value).Ok? ==>
              && r.expires == Some(Strptime(PyGet(config, ExpiresKey).value).value)
              && r.lastModified == match Strptime(PyGet(config, LastModifiedKey).value)
                                   case Ok(l) => Some(l)
                                   case Err(_) => c.lastModified
    // a dict whose `expires` does not parse changes nothing
    ensures config.Obj? && Strptime(PyGet(config, ExpiresKey).value).Err? ==> r == c
  {
    match PyGet(config, ExpiresKey)
    case Err(_) => c
    case Ok(v) =>
      match Strptime(v)
      case Err(_) => c
      case Ok(e) =>
        var c1 := c.(expires := Some(e));
        match Strptime(PyGet(config, LastModifiedKey).value)
        case Err(_) => c1
        case Ok(l) => c1.(lastModified := Some(l))
  }

  /** Saving aware stamps and restoring them into any client restores both
      stamps exactly and touches nothing else. */
  lemma ConfigRoundTrip(saved: Client, c: Client)
    requires saved.expires.Some? && saved.expires.value.offset.Some?
    requires saved.lastModified.Some? && saved.lastModified.value.offset.Some?
    ensures SetConfig(c, GetConfig(saved))
            == c.(expires := saved.expires, lastModified := saved.lastModified)
  {
  }

  /** A naive `expires` is saved without a zone and restores nothing. */
  lemma NaiveExpiresNotRestored(saved: Client, c: Client)
    requires saved.expires.Some? && saved.expires.value.offset.None?
    requires saved.lastModified.Some?
    ensures SetConfig(c, GetConfig(saved)) == c
  {
  }

  /** An aware `expires` with a naive `last_modified` restores only `expires`. */
  lemma NaiveLastModifiedHalfRestored(saved: Client, c: Client)
    requires saved.expires.Some? && saved.expires.value.offset.Some?
    requires saved.lastModified.Some? && saved.lastModified.value.offset.None?
    ensures SetConfig(c, GetConfig(saved)) == c.(expires := saved.expires)
  {
  }

  /** A client that has not fetched yet saves `None`, and restoring `None`
      changes nothing. */
  lemma UnsetConfigRestoresNothing(saved: Client, c: Client)
    requires saved.expires.None? || saved.lastModified.None?
    ensures GetConfig(saved) == Null
    ensures SetConfig(c, GetConfig(saved)) == c
  {
  }
}

=== FILE: dicts.dfy ===
/** A Python dict, modelled as its items in insertion order. */
module Dicts {
  import opened Base

  type Dict<K, V> = seq<(K, V)>

  /** The keys of `d`, as a set. */
  function Keys<K, V>(d: Dict<K, V>): set<K>
  {
    if d == [] then {} else {d[0].0} + Keys(d[1..])
  }

  /** The keys of `d`, in iteration order. */
  function KeyList<K, V>(d: Dict<K, V>): (ks: seq<K>)
    ensures |ks| == |d|
  {
    if d == [] then [] else [d[0].0] + KeyList(d[1..])
  }

  /** Every key occurs once, as in any real dict. */
  predicate Distinct<K(==), V>(d: Dict<K, V>)
  {
    d == [] || (d[0].0 !in Keys(d[1..]) && Distinct(d[1..]))
  }

  /** No element occurs twice. */
  predicate NoDup<K(==)>(s: seq<K>)
  {
    s == [] || (s[0] !in s[1..] && NoDup(s[1..]))
  }

  /** `d.get(k)`. */
  function Get<K(==), V>(d: Dict<K, V>, k: K): (r: Option<V>)
    ensures r.Some? <==> k in Keys(d)
  {
    if d == [] then None
    else if d[0].0 == k then Some(d[0].1)
    else Get(d[1..], k)
  }

  /** `d[k] = v`: a key already present keeps its place and takes the new
      value; a new key goes last. */
  function Put<K(==, !new), V>(d: Dict<K, V>, k: K, v: V): (r: Dict<K, V>)
    ensures Keys(r) == Keys(d) + {k}
    ensures Get(r, k) == Some(v)
    ensures forall k' :: k' != k ==> Get(r, k') == Get(d, k')
    ensures KeyList(r) == if k in Keys(d) then KeyList(d) else KeyList(d) + [k]
    ensures Distinct(d) ==> Distinct(r)
  {
    if d == [] then [(k, v)]
    else if d[0].0 == k then [(k, v)] + d[1..]
    else [d[0]] + Put(d[1..], k, v)
  }

  /** Appends the keys of `ks` that `seen` does not hold yet, first occurrence first:
      the key order a dict takes when `ks` are assigned into it one by one. */
  function AddNew<K(==)>(seen: seq<K>, ks: seq<K>): seq<K>
    decreases |ks|
  {
    if ks == [] then seen
    else if ks[0] in seen then AddNew(seen, ks[1..])
    else AddNew(seen + [ks[0]], ks[1..])
  }

  lemma {:induction false} KeysOfKeyList<K, V>(d: Dict<K, V>)
    ensures forall k :: k in Keys(d) <==> k in KeyList(d)
  {
    if d != [] {
      KeysOfKeyList(d[1..]);
    }
  }

  /** The two halves of a sequence without duplicates share no element. */
  lemma {:induction false} NoDupApart<K>(x: seq<K>, y: seq<K>)
    requires NoDup(x + y)
    ensures forall e | e in x :: e !in y
  {
    if x != [] {
      assert (x + y)[0] == x[0] && (x + y)[1..] == x[1..] + y;
      NoDupApart(x[1..], y);
    }
  }

  lemma {:induction false} KeyListAt<K, V>(d: Dict<K, V>, j: int)
    requires 0 <= j < |d|
    ensures KeyList(d)[j] == d[j].0
    ensures d[j].0 in KeyList(d)
  {
    if j > 0 {
      KeyListAt(d[1..], j - 1);
    }
  }

  lemma {:induction false} KeyListAppend<K, V>(d: Dict<K, V>, k: K, v: V)
    ensures KeyList(d + [(k, v)]) == KeyList(d) + [k]
  {
    if d != [] {
      assert (d + [(k, v)])[1..] == d[1..] + [(k, v)];
      KeyListAppend(d[1..], k, v);
    } else {
      assert [(k, v)][1..] == [];
    }
  }

  /** Pair `j` is the last one with its key. */
  ghost predicate LastOf<K, V>(es: seq<(K, V)>, j: int)
    requires 0 <= j < |es|
  {
    forall i | j < i < |es| :: es[i].0 != es[j].0
  }

  /** Appending one more key to the assigned keys adds it last, unless it
      was already there. */
  lemma {:induction false} AddNewSnoc<K>(seen: seq<K>, ks: seq<K>, k: K)
    ensures AddNew(seen, ks + [k])
            == if k in AddNew(seen, ks) then AddNew(seen, ks) else AddNew(seen, ks) + [k]
    decreases |ks|
  {
    if ks == [] {
      assert ks + [k] == [k];
      assert [k][1..] == [];
    } else {
      assert (ks + [k])[0] == ks[0];
      assert (ks + [k])[1..] == ks[1..] + [k];
      if ks[0] in seen {
        AddNewSnoc(seen, ks[1..], k);
      } else {
        AddNewSnoc(seen + [ks[0]], ks[1..], k);
      }
    }
  }

  /** `d` is what assigning the pairs `es` in order into an empty dict
      builds: each key once, in order of its first pair, exactly the keys of
      `es`, each holding the value of the last pair with that key. */
  ghost predicate Built<K(!new), V>(es: seq<(K, V)>, d: Dict<K, V>)
  {
    && Distinct(d)
    && KeyList(d) == AddNew([], KeyList(es))
    && (forall k :: k in Keys(d) <==> k in KeyList(es))
    && (forall j | 0 <= j < |es| && LastOf(es, j) :: Get(d, es[j].0) == Some(es[j].1))
  }

  lemma BuiltKeys<K(!new), V>(es: seq<(K, V)>, d: Dict<K, V>, k: K, v: V)
    requires forall x :: x in Keys(d) <==> x in KeyList(es)
    ensures forall x :: x in Keys(Put(d, k, v)) <==> x in KeyList(es + [(k, v)])
  {
    KeyListAppend(es, k, v);
  }

  lemma BuiltValues<K(!new), V>(es: seq<(K, V)>, d: Dict<K, V>, k: K, v: V)
    requires forall j | 0 <= j < |es| && LastOf(es, j) :: Get(d, es[j].0) == Some(es[j].1)
    ensures var es' := es + [(k, v)];
      forall j | 0 <= j < |es'| && LastOf(es', j) :: Get(Put(d, k, v), es'[j].0) == Some(es'[j].1)
  {
    var es' := es + [(k, v)];
    forall j | 0 <= j < |es'| && LastOf(es', j)
      ensures Get(Put(d, k, v), es'[j].0) == Some(es'[j].1)
    {
      if j < |es| {
        assert es'[|es|].0 != es'[j].0;
        assert LastOf(es, j) by {
          forall i | j < i < |es| ensures es[i].0 != es[j].0 {
            assert es'[i] == es[i];
          }
        }
      }
    }
  }

  /** Assigning one more pair keeps `Built`. */
  lemma BuiltStep<K(!new), V>(es: seq<(K, V)>, d: Dict<K, V>, k: K, v: V)
    requires Built(es, d)
    ensures Built(es + [(k, v)], Put(d, k, v))
  {
    BuiltKeys(es, d, k, v);
    BuiltValues(es, d, k, v);
    BuiltOrder(es, d, k, v);
  }

  lemma BuiltOrder<K(!new), V>(es: seq<(K, V)>, d: Dict<K, V>, k: K, v: V)
    requires KeyList(d) == AddNew([], KeyList(es))
    ensures KeyList(Put(d, k, v)) == AddNew([], KeyList(es + [(k, v)]))
  {
    KeyListAppend(es, k, v);
    AddNewSnoc([], KeyList(es), k);
    KeysOfKeyList(d);
  }
}

=== FILE: forecast.dfy ===
/** Lookups into the forecast payload: units, per-timestamp values with their
    horizon fallback, and the values printed under a weather symbol. */
module Forecast {
  import opened Base
  import opened Dicts
  import opened JsonValues
  import opened Text
  import opened Bearings
  import opened CompassLaws

  /** The display names that replace the payload's unit names. */
  const DisplayUnits: Dict<string, string> := [("celsius", "°C"), ("degrees", "°")]

  /** `CONST_DISPLAY_UNITS.get(u, u)`. Looking up a list or a dict in a Python
      dict raises `TypeError` (unhashable). */
  function DisplayUnit(u: Json): (r: Result<Json>)
    ensures r.Err? <==> u.Arr? || u.Obj?
    ensures r.Ok? && u.Str? && u.s in Keys(DisplayUnits) ==> r.value == Str(Get(DisplayUnits, u.s).value)
    ensures r.Ok? && !(u.Str? && u.s in Keys(DisplayUnits)) ==> r.value == u
  {
    match u
    case Arr(_) => Err(TypeError)
    case Obj(_) => Err(TypeError)
    case Str(s) => Ok(match Get(DisplayUnits, s) case Some(d) => Str(d) case None => u)
    case _ => Ok(u)
  }

  /** The payload's unit table `properties.meta.units`, when every step of the
      way is a dict. */
  function UnitTable(yrdata: Json): Option<Dict<string, Json>>
  {
    match Reach(yrdata, ["properties", "meta", "units"])
    case Some(Obj(u)) => Some(u)
    case _ => None
  }

  /** `get_unit(unit, display)`: the payload's unit for `unit`, `""` when the
      table lacks it, translated for display when asked; `"test"` when the
      table cannot be reached (the caught `AttributeError`). */
  function GetUnit(yrdata: Json, unit: string, display: bool): (r: Result<Json>)
    ensures UnitTable(yrdata).None? ==> r == Ok(Str("test"))
    ensures UnitTable(yrdata).Some? && !display ==>
              r == Ok(Get(UnitTable(yrdata).value, unit).GetOr(Str("")))
    ensures UnitTable(yrdata).Some? && display ==>
              r == DisplayUnit(Get(UnitTable(yrdata).value, unit).GetOr(Str("")))
  {
    UnitsPath(yrdata, unit);
    match GetPath(yrdata, ["properties", "meta", "units"])
    case Err(_) => Ok(Str("test"))
    case Ok(units) =>
      match PyGetOr(units, unit, Str(""))
      case Err(_) => Ok(Str("test"))
      case Ok(u) => if display then DisplayUnit(u) else Ok(u)
  }

  lemma UnitsPath(yrdata: Json, unit: string)
    ensures match GetPath(yrdata, ["properties", "meta", "units"])
            case Err(_) => UnitTable(yrdata).None?
            case Ok(units) => (units.Obj? <==> UnitTable(yrdata).Some?)
                              && (units.Obj? ==> units.fields == UnitTable(yrdata).value)
  {
    var path := ["properties", "meta", "units"];
    assert path == ["properties", "meta"] + ["units"];
    GetPathReach(yrdata, ["properties", "meta"], "units");
    assert ["properties", "meta"] == ["properties"] + ["meta"];
    GetPathReach(yrdata, ["properties"], "meta");
    assert path[..2] == ["properties", "meta"];
  }

  /** The `details` dict of one horizon (`instant`, `next_1_hours`, ...) of a
      timeseries entry, when every step of the way is a dict. */
  function Details(ts: Json, horizon: string): Option<Dict<string, Json>>
  {
    match Reach(ts, ["data", horizon, "details"])
    case Some(Obj(det)) => Some(det)
    case _ => None
  }

  /** A horizon's value for `attr`, unless it is missing or `None`. */
  function HorizonValue(ts: Json, horizon: string, attr: string): Option<Json>
  {
    match Details(ts, horizon)
    case None => None
    case Some(det) =>
      match Get(det, attr)
      case Some(v) => if v.Null? then None else Some(v)
      case None => None
  }

  /** `ts.get("data").get(horizon).get("details").get(attr, None)` agrees with
      `Details`: it raises exactly when the details dict cannot be reached. */
  lemma DetailsPath(ts: Json, horizon: string, attr: string)
    ensures GetPath(ts, ["data", horizon, "details", attr])
            == match Details(ts, horizon)
               case None => Err(AttributeError)
               case Some(det) => Ok(Get(det, attr).GetOr(Null))
  {
    assert ["data", horizon, "details", attr] == ["data", horizon, "details"] + [attr];
    GetPathReach(ts, ["data", horizon, "details"], attr);
  }

  /** `timeserie_values(ts, attr)`: the instant value, else the next-hour
      value, else the text "N/A". */
  function TimeserieValues(ts: Json, attr: string): (r: Result<Json>)
    ensures r.Ok? ==> !r.value.Null?
  {
    match GetPath(ts, ["data", "instant", "details", attr])
    case Err(e) => Err(e)
    case Ok(v) =>
      if !v.Null? then Ok(v)
      else match GetPath(ts, ["data", "next_1_hours", "details", attr])
        case Err(e) => Err(e)
        case Ok(w) => if !w.Null? then Ok(w) else Ok(Str("N/A"))
  }

  /** The fallback order of `timeserie_values`: the instant horizon wins
      whenever it has a value; the next hour is consulted only otherwise;
      "N/A" only when neither has one. A horizon that cannot be reached
      raises, and the next hour is never consulted when the instant horizon
      cannot be reached. */
  lemma {:induction false} ValuePrecedence(ts: Json, attr: string)
    ensures HorizonValue(ts, "instant", attr).Some? ==>
              TimeserieValues(ts, attr) == Ok(HorizonValue(ts, "instant", attr).value)
    ensures Details(ts, "instant").None? ==> TimeserieValues(ts, attr) == Err(AttributeError)
    ensures Details(ts, "instant").Some? && HorizonValue(ts, "instant", attr).None? ==>
              TimeserieValues(ts, attr)
              == match Details(ts, "next_1_hours")
                 case None => Err(AttributeError)
                 case Some(_) => Ok(HorizonValue(ts, "next_1_hours", attr).GetOr(Str("N/A")))
  {
    DetailsPath(ts, "instant", attr);
    DetailsPath(ts, "next_1_hours", attr);
  }

  /** What `timeserie_imagevalues` stores: a value as found, a rounded number,
      or formatted text. */
  datatype ImageValue = Raw(json: Json) | Whole(n: int) | Text(s: string)

  const BearingAttr := "wind_from_direction"
  const CardinalKey := "wind_direction_cardinal"
  const WindAttrs: seq<string> := [BearingAttr, "wind_speed", "wind_speed_of_gust"]
  const ImageAttrs: seq<string> :=
    ["air_temperature", "precipitation_amount", BearingAttr,
     "wind_speed", "wind_speed_of_gust", "air_pressure_at_sea_level"]

  /** The text stored for a bearing: its compass label and its rounded degrees. */
  function BearingText(b: real): string
  {
    GetCompass(Some(b)).value + " (" + IntText(RoundHalfEven(b)) + ")"
  }

  /** One pass of the loop in `timeserie_imagevalues`, for `attr`. `round`
      and division apply to numbers only; anything else raises `TypeError`. */
  function ImageValueOf(ts: Json, attr: string): (r: Result<(string, ImageValue)>)
    ensures r.Err? <==> TimeserieValues(ts, attr).Err?
                        || (attr in WindAttrs && !TimeserieValues(ts, attr).value.Num?)
    ensures r.Err? && TimeserieValues(ts, attr).Ok? ==> r.error == TypeError
    ensures r.Ok? ==> r.value.0 == OutputKey(attr)
    // values other than wind ones are stored as found
    ensures r.Ok? && attr !in WindAttrs ==> r.value.1 == Raw(TimeserieValues(ts, attr).value)
    // wind speeds are stored as a nearest integer, ties to the even one
    ensures r.Ok? && attr in WindAttrs && attr != BearingAttr ==>
              r.value.1.Whole? && NearestEven(TimeserieValues(ts, attr).value.n, r.value.1.n)
  {
    match TimeserieValues(ts, attr)
    case Err(e) => Err(e)
    case Ok(v) =>
      if attr == BearingAttr then
        (if v.Num? then Ok((CardinalKey, Text(BearingText(v.n)))) else Err(TypeError))
      else if attr in WindAttrs then
        (if v.Num? then Ok((attr, Whole(RoundHalfEven(v.n)))) else Err(TypeError))
      else Ok((attr, Raw(v)))
  }

  /** The loop of `timeserie_imagevalues`: for each attribute in turn,
      `step` computes an entry (or raises, which ends the loop) and the entry
      is stored in `acc`. */
  function Collect<V>(step: string -> Result<(string, V)>, attrs: seq<string>, acc: Dict<string, V>): Result<Dict<string, V>>
    decreases |attrs|
  {
    if attrs == [] then Ok(acc)
    else match step(attrs[0])
      case Err(e) => Err(e)
      case Ok(kv) => Collect(step, attrs[1..], Put(acc, kv.0, kv.1))
  }

  /** The loop body of `timeserie_imagevalues`. */
  function ImageStep(ts: Json): string -> Result<(string, ImageValue)>
  {
    a => ImageValueOf(ts, a)
  }

  /** `timeserie_imagevalues(ts)`: six entries in a fixed order, the bearing
      stored as compass text under its own key, the others under their
      names; it raises exactly when one of the six lookups raises or a wind
      value is not a number. */
  function TimeserieImageValues(ts: Json): (r: Result<Dict<string, ImageValue>>)
    ensures r.Ok? <==> forall a | a in ImageAttrs :: ImageValueOf(ts, a).Ok?
    ensures r.Ok? ==> KeyList(r.value) == ImageKeys
    ensures r.Ok? ==>
              forall a | a in ImageAttrs :: Get(r.value, OutputKey(a)) == Some(ImageValueOf(ts, a).value.1)
  {
    ImageCollect(ts);
    Collect(ImageStep(ts), ImageAttrs, [])
  }

  /** The name each attribute is stored under: the bearing becomes the
      cardinal entry, the rest keep their names. */
  function OutputKey(attr: string): string
  {
    if attr == BearingAttr then CardinalKey else attr
  }

  /** The output names of `attrs`, in order. */
  function OutputKeys(attrs: seq<string>): (ks: seq<string>)
    ensures |ks| == |attrs|
  {
    if attrs == [] then [] else [OutputKey(attrs[0])] + OutputKeys(attrs[1..])
  }

  /** No attribute of `attrs` raises. */
  ghost predicate AllSucceed<V>(step: string -> Result<(string, V)>, attrs: seq<string>)
  {
    forall a | a in attrs :: step(a).Ok?
  }

  /** Every entry `step` computes is stored under the attribute's output name. */
  ghost predicate Keyed<V>(step: string -> Result<(string, V)>)
  {
    forall a :: step(a).Ok? ==> step(a).value.0 == OutputKey(a)
  }

  lemma ImageStepKeyed(ts: Json)
    ensures Keyed(ImageStep(ts))
  {
    forall a | ImageStep(ts)(a).Ok? ensures ImageStep(ts)(a).value.0 == OutputKey(a) {
      OutputKeyOf(ts, a);
    }
  }

  lemma OutputKeyOf(ts: Json, a: string)
    requires ImageValueOf(ts, a).Ok?
    ensures ImageValueOf(ts, a).value.0 == OutputKey(a)
  {
  }

  lemma AllSucceedTail<V>(step: string -> Result<(string, V)>, attrs: seq<string>)
    requires attrs != [] && AllSucceed(step, attrs)
    ensures step(attrs[0]).Ok? && AllSucceed(step, attrs[1..])
  {
    assert attrs[0] in attrs;
    forall a | a in attrs[1..] ensures step(a).Ok? {
      assert a in attrs;
    }
  }

  /** The loop fails exactly when some attribute fails. */
  lemma {:induction false} CollectSucceeds<V>(step: string -> Result<(string, V)>, attrs: seq<string>, acc: Dict<string, V>)
    ensures Collect(step, attrs, acc).Ok? <==> AllSucceed(step, attrs)
    decreases |attrs|
  {
    if attrs != [] {
      var r0 := step(attrs[0]);
      assert attrs[0] in attrs;
      if r0.Ok? {
        CollectSucceeds(step, attrs[1..], Put(acc, r0.value.0, r0.value.1));
        assert attrs == [attrs[0]] + attrs[1..];
      }
    }
  }

  /** One turn of the loop: the first attribute's entry is stored and the
      loop goes on with the rest. */
  lemma CollectOne<V>(step: string -> Result<(string, V)>, attrs: seq<string>, acc: Dict<string, V>)
    requires attrs != [] && step(attrs[0]).Ok?
    ensures Collect(step, attrs, acc)
            == Collect(step, attrs[1..], Put(acc, step(attrs[0]).value.0, step(attrs[0]).value.1))
  {
  }

  lemma OutputKeysCons(attrs: seq<string>)
    requires attrs != []
    ensures OutputKeys(attrs) == [OutputKey(attrs[0])] + OutputKeys(attrs[1..])
  {
  }

  lemma ConcatAssoc<T>(x: seq<T>, y: seq<T>, z: seq<T>)
    ensures x + (y + z) == x + y + z
  {
  }

  /** A name new to the dict goes last in its key order. */
  lemma PutFreshKey<V>(acc: Dict<string, V>, k: string, v: V, rest: seq<string>)
    requires NoDup(KeyList(acc) + [k] + rest)
    ensures KeyList(Put(acc, k, v)) + rest == KeyList(acc) + [k] + rest
  {
    NoDupApart(KeyList(acc), [k] + rest);
    assert KeyList(acc) + [k] + rest == KeyList(acc) + ([k] + rest);
    assert k in [k] + rest;
    KeysOfKeyList(acc);
  }

  /** One turn of the loop stores the first attribute's entry under a name
      new to `acc`. */
  lemma KeysStep<V>(step: string -> Result<(string, V)>, attrs: seq<string>, acc: Dict<string, V>) returns (acc': Dict<string, V>)
    requires attrs != [] && step(attrs[0]).Ok? && step(attrs[0]).value.0 == OutputKey(attrs[0])
    requires NoDup(KeyList(acc) + OutputKeys(attrs))
    ensures Collect(step, attrs, acc) == Collect(step, attrs[1..], acc')
    ensures KeyList(acc') + OutputKeys(attrs[1..]) == KeyList(acc) + OutputKeys(attrs)
  {
    var k0 := OutputKey(attrs[0]);
    var rest := OutputKeys(attrs[1..]);
    CollectOne(step, attrs, acc);
    acc' := Put(acc, k0, step(attrs[0]).value.1);
    OutputKeysCons(attrs);
    ConcatAssoc(KeyList(acc), [k0], rest);
    PutFreshKey(acc, k0, step(attrs[0]).value.1, rest);
  }

  /** On success the loop adds one key per attribute, its output name, in
      attribute order. */
  lemma {:induction false} CollectKeys<V>(step: string -> Result<(string, V)>, attrs: seq<string>, acc: Dict<string, V>)
    requires Keyed(step) && AllSucceed(step, attrs)
    requires NoDup(KeyList(acc) + OutputKeys(attrs))
    ensures Collect(step, attrs, acc).Ok?
    ensures KeyList(Collect(step, attrs, acc).value) == KeyList(acc) + OutputKeys(attrs)
    decreases |attrs|
  {
    CollectSucceeds(step, attrs, acc);
    if attrs != [] {
      AllSucceedTail(step, attrs);
      var acc' := KeysStep(step, attrs, acc);
      CollectKeys(step, attrs[1..], acc');
    }
  }

  /** On success each attribute's value is stored under its output name, and
      keys that no attribute writes keep their values. */
  lemma {:induction false} CollectValues<V>(step: string -> Result<(string, V)>, attrs: seq<string>, acc: Dict<string, V>)
    requires Keyed(step) && AllSucceed(step, attrs)
    requires NoDup(OutputKeys(attrs))
    ensures Collect(step, attrs, acc).Ok?
    ensures var r := Collect(step, attrs, acc).value;
      && (forall a | a in attrs :: Get(r, OutputKey(a)) == Some(step(a).value.1))
      && (forall k | k !in OutputKeys(attrs) :: Get(r, k) == Get(acc, k))
    decreases |attrs|
  {
    CollectSucceeds(step, attrs, acc);
    if attrs != [] {
      var a0 := attrs[0];
      AllSucceedTail(step, attrs);
      var acc' := Put(acc, OutputKey(a0), step(a0).value.1);
      assert Collect(step, attrs, acc) == Collect(step, attrs[1..], acc');
      var ks := OutputKeys(attrs);
      assert ks == [OutputKey(a0)] + OutputKeys(attrs[1..]);
      assert ks[0] == OutputKey(a0) && ks[1..] == OutputKeys(attrs[1..]);
      CollectValues(step, attrs[1..], acc');
      var r := Collect(step, attrs, acc).value;
      forall a | a in attrs
        ensures Get(r, OutputKey(a)) == Some(step(a).value.1)
      {
        if a != a0 {
          assert a in attrs[1..];
          if OutputKey(a) == OutputKey(a0) {
            assert OutputKey(a) in OutputKeys(attrs[1..]) by { OutputKeyIn(attrs[1..], a); }
          }
        }
      }
    }
  }

  lemma {:induction false} OutputKeyIn(attrs: seq<string>, a: string)
    requires a in attrs
    ensures OutputKey(a) in OutputKeys(attrs)
  {
    if attrs[0] != a {
      OutputKeyIn(attrs[1..], a);
    }
  }

  /** The names `timeserie_imagevalues` stores under, in order. */
  const ImageKeys: seq<string> :=
    ["air_temperature", "precipitation_amount", CardinalKey,
     "wind_speed", "wind_speed_of_gust", "air_pressure_at_sea_level"]

  lemma ImageKeysOf()
    ensures OutputKeys(ImageAttrs) == ImageKeys
  {
    var a := ImageAttrs;
    var k := ImageKeys;
    assert OutputKeys(a[6..]) == k[6..];
    assert OutputKeys(a[5..]) == k[5..];
    assert OutputKeys(a[4..]) == k[4..];
    assert OutputKeys(a[3..]) == k[3..];
    assert OutputKeys(a[2..]) == k[2..];
    assert OutputKeys(a[1..]) == k[1..];
    assert OutputKeys(a) == [OutputKey(a[0])] + OutputKeys(a[1..]);
  }

  lemma ImageKeysNoDup()
    ensures NoDup(ImageKeys)
  {
    var k := ImageKeys;
    assert NoDup(k[5..]);
    assert NoDup(k[4..]);
    assert NoDup(k[3..]);
    assert NoDup(k[2..]);
    assert NoDup(k[1..]);
  }

  /** The bearing is stored under the cardinal name, the other attributes
      under their own names, and no two share a name. */
  lemma ImageKeysDistinct()
    ensures OutputKeys(ImageAttrs) == ImageKeys
    ensures NoDup(ImageKeys)
  {
    ImageKeysOf();
    ImageKeysNoDup();
  }


  /** The loop of `timeserie_imagevalues` over its six attributes. */
  lemma ImageCollect(ts: Json)
    ensures var r := Collect(ImageStep(ts), ImageAttrs, []);
      && (r.Ok? <==> forall a | a in ImageAttrs :: ImageValueOf(ts, a).Ok?)
      && (r.Ok? ==> KeyList(r.value) == ImageKeys)
      && (r.Ok? ==> forall a | a in ImageAttrs :: Get(r.value, OutputKey(a)) == Some(ImageValueOf(ts, a).value.1))
  {
    var step := ImageStep(ts);
    CollectSucceeds(step, ImageAttrs, []);
    assert AllSucceed(step, ImageAttrs) <==> forall a | a in ImageAttrs :: ImageValueOf(ts, a).Ok?;
    if AllSucceed(step, ImageAttrs) {
      ImageStepKeyed(ts);
      ImageKeysDistinct();
      assert KeyList<string, ImageValue>([]) + OutputKeys(ImageAttrs) == OutputKeys(ImageAttrs);
      CollectKeys(step, ImageAttrs, []);
      CollectValues(step, ImageAttrs, []);
    }
  }

  /** The bearing's entry: the label of the sector the bearing lies in,
      then a nearest whole number of degrees (ties to the even one) in
      parentheses. */
  lemma BearingEntry(ts: Json, b: real, i: int, n: int)
    requires TimeserieValues(ts, BearingAttr) == Ok(Num(b))
    requires -11.25 < b - 22.5 * i as real < 11.25
    requires NearestEven(b, n)
    ensures ImageValueOf(ts, BearingAttr)
            == Ok((CardinalKey, Text(Directions[i % 16] + " (" + IntText(n) + ")")))
  {
    CompassSector(b, i);
    RoundUnique(b, n);
  }
}

=== FILE: json.dfy ===
/** Decoded JSON as the Python code sees it: `None`, numbers, strings, lists
    and dicts. The forecast payload carries no booleans, so none are modelled. */
module JsonValues {
  import opened Base
  import opened Dicts

  datatype Json =
    | Null
    | Num(n: real)
    | Str(s: string)
    | Arr(items: seq<Json>)
    | Obj(fields: Dict<string, Json>)

  /** `j.get(key, default)`: a dict answers the key's value or `default`;
      anything else has no `get` method. */
  function PyGetOr(j: Json, key: string, default: Json): (r: Result<Json>)
    ensures r.Err? <==> !j.Obj?
    ensures r.Err? ==> r.error == AttributeError
    ensures j.Obj? && key !in Keys(j.fields) ==> r == Ok(default)
    ensures j.Obj? && key in Keys(j.fields) ==> r == Ok(Get(j.fields, key).value)
  {
    if j.Obj? then Ok(Get(j.fields, key).GetOr(default)) else Err(AttributeError)
  }

  /** `j.get(key)`, which defaults to `None`. */
  function PyGet(j: Json, key: string): Result<Json>
  {
    PyGetOr(j, key, Null)
  }

  /** The chained lookup `j.get(path[0]).get(path[1])...`; the first step
      taken on a non-dict raises `AttributeError`. */
  function GetPath(j: Json, path: seq<string>): (r: Result<Json>)
    ensures r.Err? ==> r.error == AttributeError
    decreases |path|
  {
    if path == [] then Ok(j)
    else match PyGet(j, path[0])
      case Err(e) => Err(e)
      case Ok(v) => GetPath(v, path[1..])
  }

  /** The value found by following `path` through dicts that hold each key in
      turn; `None` when some step is not a dict or lacks the key. */
  function Reach(j: Json, path: seq<string>): Option<Json>
    decreases |path|
  {
    if path == [] then Some(j)
    else if j.Obj? && path[0] in Keys(j.fields) then Reach(Get(j.fields, path[0]).value, path[1..])
    else None
  }

  /** A chain of `.get` calls ending in `.get(key)` answers the key's value
      (or `None`) exactly when the rest of the chain reaches a dict, and
      raises `AttributeError` otherwise: a missing key yields `None`, and the
      next `.get` on that `None` raises. */
  lemma {:induction false} GetPathReach(j: Json, path: seq<string>, key: string)
    ensures GetPath(j, path + [key])
            == match Reach(j, path)
               case Some(Obj(f)) => Ok(Get(f, key).GetOr(Null))
               case _ => Err(AttributeError)
    decreases |path|
  {
    if path == [] {
      assert [] + [key] == [key];
      assert [key][1..] == [];
    } else {
      assert (path + [key])[0] == path[0];
      assert (path + [key])[1..] == path[1..] + [key];
      if j.Obj? && path[0] in Keys(j.fields) {
        GetPathReach(Get(j.fields, path[0]).value, path[1..], key);
      } else if j.Obj? {
        NullPath(path[1..] + [key]);
      }
    }
  }

  /** Reaching one key further is a lookup in the dict reached so far. */
  lemma {:induction false} ReachSnoc(j: Json, path: seq<string>, key: string)
    ensures Reach(j, path + [key])
            == match Reach(j, path)
               case Some(Obj(f)) => Get(f, key)
               case _ => None
    decreases |path|
  {
    if path == [] {
      assert [] + [key] == [key];
      assert [key][1..] == [];
    } else {
      assert (path + [key])[0] == path[0];
      assert (path + [key])[1..] == path[1..] + [key];
      if j.Obj? && path[0] in Keys(j.fields) {
        ReachSnoc(Get(j.fields, path[0]).value, path[1..], key);
      }
    }
  }

  /** Every `.get` chain on `None` raises. */
  lemma NullPath(path: seq<string>)
    requires path != []
    ensures GetPath(Null, path) == Err(AttributeError)
  {
  }

  /** What a Python `for` loop walks over: list items, dict keys, or the
      characters of a string; a number is not iterable. */
  function Iterate(j: Json): (r: Result<seq<Json>>)
    ensures r.Err? <==> j.Num? || j.Null?
    ensures j.Arr? ==> r == Ok(j.items)
  {
    match j
    case Arr(items) => Ok(items)
    case Obj(fields) => Ok(seq(|fields|, i requires 0 <= i < |fields| => Str(fields[i].0)))
    case Str(s) => Ok(seq(|s|, i requires 0 <= i < |s| => Str([s[i]])))
    case _ => Err(TypeError)
  }
}

=== FILE: massage.dfy ===
/** `massage_yrdata` of the plotting helper: turning the per-time details
    into one column of values per detail name, padded with zeros. */
module Massage {
  import opened Base
  import opened Dicts
  import opened JsonValues

  /** The zero the columns are padded with. */
  const Zero := Num(0.0)

  /** `n` copies of `v`. */
  function Repeat<T>(v: T, n: nat): (r: seq<T>)
    ensures |r| == n && forall i | 0 <= i < n :: r[i] == v
  {
    if n == 0 then [] else [v] + Repeat(v, n - 1)
  }

  /** The detail dicts are dicts: no name twice in one of them. */
  predicate WellFormed(wd: Dict<int, Json>)
  {
    forall i | 0 <= i < |wd| :: wd[i].1.Obj? && Distinct(wd[i].1.fields)
  }

  /** Every time's details are a dict. */
  predicate AllDicts(wd: Dict<int, Json>)
  {
    forall i | 0 <= i < |wd| :: wd[i].1.Obj?
  }

  /** The detail dict of the last time, empty when it is not a dict. */
  function LastFields(wd: Dict<int, Json>): Dict<string, Json>
    requires wd != []
  {
    var data := wd[|wd| - 1].1;
    if data.Obj? then data.fields else []
  }

  // ---------------------------------------------------------------------
  // Reference: the columns, one detail name at a time
  // ---------------------------------------------------------------------

  /** The values `key` takes over the times, in time order, skipping the
      times that lack it. */
  function Column(wd: Dict<int, Json>, key: string): (c: seq<Json>)
    ensures |c| <= |wd|
    decreases |wd|
  {
    if wd == [] then []
    else
      var f := LastFields(wd);
      Column(wd[..|wd| - 1], key) + (if key in Keys(f) then [Get(f, key).value] else [])
  }

  /** Every detail name, in the order of its first appearance. */
  function AllKeys(wd: Dict<int, Json>): seq<string>
    decreases |wd|
  {
    if wd == [] then [] else AddNew(AllKeys(wd[..|wd| - 1]), KeyList(LastFields(wd)))
  }

  // ---------------------------------------------------------------------
  // The code
  // ---------------------------------------------------------------------

  /** `if dd.get(key, None) is None: dd[key] = []` then `dd[key].append(value)`. */
  function AppendValue(dd: Dict<string, seq<Json>>, key: string, v: Json): Dict<string, seq<Json>>
  {
    Put(dd, key, Get(dd, key).GetOr([]) + [v])
  }

  /** The inner loop: every `key, value` of one time's details, in order. */
  function AppendRow(dd: Dict<string, seq<Json>>, fields: Dict<string, Json>): Dict<string, seq<Json>>
    decreases |fields|
  {
    if fields == [] then dd
    else AppendRow(AppendValue(dd, fields[0].0, fields[0].1), fields[1..])
  }

  /** The outer loop: every time in order; details that are not a dict have
      no `items` and raise `AttributeError`. */
  function Gather(wd: Dict<int, Json>): (r: Result<Dict<string, seq<Json>>>)
    ensures r.Err? <==> exists i | 0 <= i < |wd| :: !wd[i].1.Obj?
    ensures r.Err? ==> r.error == AttributeError
    decreases |wd|
  {
    if wd == [] then Ok([])
    else
      var prefix := wd[..|wd| - 1];
      assert forall i | 0 <= i < |prefix| :: prefix[i] == wd[i];
      match Gather(prefix)
      case Err(e) => Err(e)
      case Ok(dd) =>
        var data := wd[|wd| - 1].1;
        if data.Obj? then Ok(AppendRow(dd, data.fields)) else Err(AttributeError)
  }

  /** The second loop: every column shorter than the number of times gets
      zeros appended until it is as long. */
  function PadColumns(dd: Dict<string, seq<Json>>, n: nat): (r: Dict<string, seq<Json>>)
    ensures |r| == |dd|
    ensures forall i | 0 <= i < |r| :: r[i].0 == dd[i].0 && |r[i].1| >= n
    decreases |dd|
  {
    if dd == [] then []
    else
      var v := dd[0].1;
      [(dd[0].0, if |v| < n then v + Repeat(Zero, n - |v|) else v)] + PadColumns(dd[1..], n)
  }

  /** `massage_yrdata(wd)`: it raises `AttributeError` exactly when some
      time's details are not a dict, and otherwise every column has at least
      one cell per time. */
  function MassageYrData(wd: Dict<int, Json>): (r: Result<Dict<string, seq<Json>>>)
    ensures r.Err? <==> !AllDicts(wd)
    ensures r.Err? ==> r.error == AttributeError
    ensures r.Ok? ==> forall i | 0 <= i < |r.value| :: |r.value[i].1| >= |wd|
  {
    match Gather(wd)
    case Err(e) => Err(e)
    case Ok(dd) => Ok(PadColumns(dd, |wd|))
  }

  // ---------------------------------------------------------------------
  // What the code computes
  // ---------------------------------------------------------------------

  /** Appending one time's details adds each of its names once, in its
      order after the names already there, and extends exactly the columns
      of the names it holds. */
  lemma {:induction false} AppendRowSpec(dd: Dict<string, seq<Json>>, fields: Dict<string, Json>)
    requires Distinct(dd) && Distinct(fields)
    ensures Distinct(AppendRow(dd, fields))
    ensures KeyList(AppendRow(dd, fields)) == AddNew(KeyList(dd), KeyList(fields))
    ensures forall k :: Get(AppendRow(dd, fields), k)
                        == if k in Keys(fields) then Some(Get(dd, k).GetOr([]) + [Get(fields, k).value])
                           else Get(dd, k)
    decreases |fields|
  {
    if fields != [] {
      var k0 := fields[0].0;
      var dd1 := AppendValue(dd, k0, fields[0].1);
      var rest := fields[1..];
      assert k0 !in Keys(rest) by { DistinctHeadFresh(fields); }
      AppendRowSpec(dd1, rest);
      KeysOfKeyList(dd);
      assert KeyList(fields) == [k0] + KeyList(rest);
      forall k ensures Get(AppendRow(dd, fields), k)
                       == if k in Keys(fields) then Some(Get(dd, k).GetOr([]) + [Get(fields, k).value])
                          else Get(dd, k)
      {
        if k == k0 {
          assert Get(fields, k) == Some(fields[0].1);
        } else {
          assert Get(dd1, k) == Get(dd, k);
          assert Get(fields, k) == Get(rest, k);
        }
      }
    }
  }

  /** The first key of a dict does not occur again after it. */
  lemma DistinctHeadFresh<V>(d: Dict<string, V>)
    requires d != [] && Distinct(d)
    ensures d[0].0 !in Keys(d[1..])
  {
  }

  lemma WellFormedPrefix(wd: Dict<int, Json>)
    requires wd != [] && WellFormed(wd)
    ensures WellFormed(wd[..|wd| - 1])
    ensures wd[|wd| - 1].1.Obj? && Distinct(LastFields(wd))
  {
    var prefix := wd[..|wd| - 1];
    forall i | 0 <= i < |prefix| ensures prefix[i] == wd[i] { }
  }

  /** Gathering one more time appends that time's details. */
  lemma GatherStep(wd: Dict<int, Json>)
    requires wd != [] && WellFormed(wd)
    ensures Gather(wd[..|wd| - 1]).Ok?
    ensures Gather(wd) == Ok(AppendRow(Gather(wd[..|wd| - 1]).value, LastFields(wd)))
  {
    WellFormedPrefix(wd);
  }

  /** The gathered columns hold each name's values in time order; a name
      has a column exactly when some time holds it. */
  lemma {:induction false} GatherValues(wd: Dict<int, Json>)
    requires WellFormed(wd)
    ensures Gather(wd).Ok?
    ensures Distinct(Gather(wd).value)
    ensures forall k :: Get(Gather(wd).value, k) == if Column(wd, k) == [] then None else Some(Column(wd, k))
    decreases |wd|
  {
    if wd != [] {
      var prefix := wd[..|wd| - 1];
      WellFormedPrefix(wd);
      GatherValues(prefix);
      GatherStep(wd);
      var dd := Gather(prefix).value;
      var f := LastFields(wd);
      AppendRowSpec(dd, f);
      var dd' := AppendRow(dd, f);
      forall k ensures Get(dd', k) == if Column(wd, k) == [] then None else Some(Column(wd, k))
      {
        GatherValueAt(wd, dd, k);
      }
    }
  }

  /** One name's column after one more time is gathered. */
  lemma GatherValueAt(wd: Dict<int, Json>, dd: Dict<string, seq<Json>>, k: string)
    requires wd != [] && Distinct(dd) && Distinct(LastFields(wd))
    requires Get(dd, k) == if Column(wd[..|wd| - 1], k) == [] then None else Some(Column(wd[..|wd| - 1], k))
    ensures Get(AppendRow(dd, LastFields(wd)), k) == if Column(wd, k) == [] then None else Some(Column(wd, k))
  {
    var f := LastFields(wd);
    var c := Column(wd[..|wd| - 1], k);
    AppendRowSpec(dd, f);
    assert Get(dd, k).GetOr([]) == c;
    if k in Keys(f) {
      assert Column(wd, k) == c + [Get(f, k).value];
    } else {
      assert Column(wd, k) == c + [];
      assert c + [] == c;
      assert Get(AppendRow(dd, f), k) == Get(dd, k);
    }
  }

  /** The gathered names come in order of first appearance. */
  lemma {:induction false} GatherKeys(wd: Dict<int, Json>)
    requires WellFormed(wd)
    ensures Gather(wd).Ok?
    ensures KeyList(Gather(wd).value) == AllKeys(wd)
    decreases |wd|
  {
    if wd != [] {
      var prefix := wd[..|wd| - 1];
      WellFormedPrefix(wd);
      GatherKeys(prefix);
      GatherValues(prefix);
      GatherStep(wd);
      AppendRowSpec(Gather(prefix).value, LastFields(wd));
    }
  }

  /** Padding keeps the names and their order and lengthens each column to `n`. */
  lemma {:induction false} PadColumnsSpec(dd: Dict<string, seq<Json>>, n: nat)
    ensures KeyList(PadColumns(dd, n)) == KeyList(dd)
    ensures Distinct(dd) ==> Distinct(PadColumns(dd, n))
    ensures forall k :: Get(PadColumns(dd, n), k)
                        == match Get(dd, k)
                           case None => None
                           case Some(v) => Some(if |v| < n then v + Repeat(Zero, n - |v|) else v)
    decreases |dd|
  {
    if dd != [] {
      PadColumnsSpec(dd[1..], n);
      KeysOfKeyList(dd[1..]);
      KeysOfKeyList(PadColumns(dd[1..], n));
    }
  }

  /** One name's padded column. */
  lemma PaddedAt(wd: Dict<int, Json>, dd: Dict<string, seq<Json>>, k: string)
    requires Get(dd, k) == if Column(wd, k) == [] then None else Some(Column(wd, k))
    ensures Get(PadColumns(dd, |wd|), k)
            == if Column(wd, k) == [] then None
               else Some(Column(wd, k) + Repeat(Zero, |wd| - |Column(wd, k)|))
  {
    PadColumnsSpec(dd, |wd|);
    var c := Column(wd, k);
    if |c| == |wd| {
      assert c + Repeat(Zero, 0) == c;
    }
  }

  /** `massage_yrdata` on well-formed details: one column per detail name,
      in order of first appearance, each holding that name's values in time
      order followed by as many zeros as there are times lacking it. */
  lemma {:induction false} MassageSpec(wd: Dict<int, Json>)
    requires WellFormed(wd)
    ensures var r := MassageYrData(wd);
      && r.Ok?
      && Distinct(r.value)
      && KeyList(r.value) == AllKeys(wd)
      && forall k :: Get(r.value, k)
                     == if Column(wd, k) == [] then None
                        else Some(Column(wd, k) + Repeat(Zero, |wd| - |Column(wd, k)|))
  {
    GatherValues(wd);
    GatherKeys(wd);
    var dd := Gather(wd).value;
    MassageOfGathered(wd, dd);
    PadGathered(wd, dd);
  }

  lemma MassageOfGathered(wd: Dict<int, Json>, dd: Dict<string, seq<Json>>)
    requires Gather(wd) == Ok(dd)
    ensures MassageYrData(wd) == Ok(PadColumns(dd, |wd|))
  {
  }

  /** Padding the gathered columns of well-formed details. */
  lemma {:induction false} PadGathered(wd: Dict<int, Json>, dd: Dict<string, seq<Json>>)
    requires Distinct(dd) && KeyList(dd) == AllKeys(wd)
    requires forall k :: Get(dd, k) == if Column(wd, k) == [] then None else Some(Column(wd, k))
    ensures Distinct(PadColumns(dd, |wd|))
    ensures KeyList(PadColumns(dd, |wd|)) == AllKeys(wd)
    ensures forall k :: Get(PadColumns(dd, |wd|), k)
                        == if Column(wd, k) == [] then None
                           else Some(Column(wd, k) + Repeat(Zero, |wd| - |Column(wd, k)|))
  {
    var m := PadColumns(dd, |wd|);
    PadColumnsSpec(dd, |wd|);
    forall k ensures Get(m, k)
                     == if Column(wd, k) == [] then None
                        else Some(Column(wd, k) + Repeat(Zero, |wd| - |Column(wd, k)|))
    {
      PaddedAt(wd, dd, k);
    }
  }

  // ---------------------------------------------------------------------
  // The padding goes at the end, not at the times that lack the name
  // ---------------------------------------------------------------------

  /** What a time's details say for `key`: its value, or the padding zero. */
  function Cell(data: Json, key: string): Json
  {
    if data.Obj? && key in Keys(data.fields) then Get(data.fields, key).value else Zero
  }

  /** Two times, the first without `a`: the code puts the second time's value
      first in the column and the zero last, so the plot shows `a` at the
      wrong time. */
  lemma MisalignedPadding()
    ensures var wd: Dict<int, Json> := [(0, Obj([])), (3600, Obj([("a", Num(5.0))]))];
      && MassageYrData(wd) == Ok([("a", [Num(5.0), Zero])])
      && Cell(wd[0].1, "a") == Zero
  {
    var wd: Dict<int, Json> := [(0, Obj([])), (3600, Obj([("a", Num(5.0))]))];
    assert wd[..1] == [(0, Obj([]))];
    assert wd[..1][..0] == [];
    assert Gather(wd[..1]) == Ok([]);
    var f := [("a", Num(5.0))];
    assert LastFields(wd) == f;
    assert f[1..] == [];
    var empty: Dict<string, seq<Json>> := [];
    var col: seq<Json> := [];
    assert Get(empty, "a") == None;
    assert col + [Num(5.0)] == [Num(5.0)];
    assert Put(empty, "a", [Num(5.0)]) == [("a", [Num(5.0)])];
    assert AppendValue(empty, "a", Num(5.0)) == [("a", [Num(5.0)])];
    assert AppendRow(empty, f) == [("a", [Num(5.0)])];
    assert Gather(wd) == Ok([("a", [Num(5.0)])]);
    assert Repeat(Zero, 1) == [Zero];
    var dd: Dict<string, seq<Json>> := [("a", [Num(5.0)])];
    assert dd[1..] == [];
    assert PadColumns(dd, 2) == [("a", [Num(5.0)] + Repeat(Zero, 1))] + PadColumns([], 2);
    assert [Num(5.0)] + [Zero] == [Num(5.0), Zero];
    assert PadColumns(dd, 2) == [("a", [Num(5.0), Zero])];
    assert MassageYrData(wd) == Ok(PadColumns(dd, |wd|));
  }

  /** The column of `key` aligned with the times: one cell per time. */
  function AlignedColumn(wd: Dict<int, Json>, key: string): (c: seq<Json>)
    ensures |c| == |wd|
    ensures forall j | 0 <= j < |wd| :: c[j] == Cell(wd[j].1, key)
    decreases |wd|
  {
    if wd == [] then []
    else AlignedColumn(wd[..|wd| - 1], key) + [Cell(wd[|wd| - 1].1, key)]
  }

  /** One aligned column for each of `keys`. */
  function AlignedColumns(wd: Dict<int, Json>, keys: seq<string>): (r: Dict<string, seq<Json>>)
    ensures KeyList(r) == keys
    ensures forall k | k in keys :: Get(r, k) == Some(AlignedColumn(wd, k))
    decreases |keys|
  {
    if keys == [] then []
    else [(keys[0], AlignedColumn(wd, keys[0]))] + AlignedColumns(wd, keys[1..])
  }

  /** `massage_yrdata` as evidently intended: the same names in the same
      order, each column holding, for every time, that time's value or zero. */
  function MassageAligned(wd: Dict<int, Json>): (r: Result<Dict<string, seq<Json>>>)
    ensures r.Err? <==> exists i | 0 <= i < |wd| :: !wd[i].1.Obj?
  {
    match Gather(wd)
    case Err(e) => Err(e)
    case Ok(_) => Ok(AlignedColumns(wd, AllKeys(wd)))
  }

  /** The aligned columns keep the names of the code and put every value at
      its own time. */
  lemma MassageAlignedSpec(wd: Dict<int, Json>)
    requires WellFormed(wd)
    ensures MassageAligned(wd).Ok?
    ensures KeyList(MassageAligned(wd).value) == KeyList(MassageYrData(wd).value)
    ensures forall k, j | k in AllKeys(wd) && 0 <= j < |wd| ::
              Get(MassageAligned(wd).value, k).value[j] == Cell(wd[j].1, k)
  {
    MassageSpec(wd);
  }

  /** When every time holds the same names, nothing is padded and the code's
      columns are the aligned ones. */
  lemma {:induction false} UniformNeedsNoPadding(wd: Dict<int, Json>, k: string)
    requires WellFormed(wd)
    requires forall i | 0 <= i < |wd| :: k in Keys(wd[i].1.fields)
    ensures Column(wd, k) == AlignedColumn(wd, k)
    decreases |wd|
  {
    if wd != [] {
      var prefix := wd[..|wd| - 1];
      WellFormedPrefix(wd);
      forall i | 0 <= i < |prefix| ensures k in Keys(prefix[i].1.fields) {
        assert prefix[i] == wd[i];
      }
      UniformNeedsNoPadding(prefix, k);
    }
  }
}

=== FILE: selection.dfy ===
/** The two walks over the forecast's time series: the one that picks the
    first six entries with a next-hour symbol for the forecast image, and the
    one that collects the instant details of every entry for plotting. */
module Selection {
  import opened Base
  import opened Dicts
  import opened JsonValues
  import opened Stamps

  /** The number of symbols the forecast image shows. */
  const ImageCount := 6

  /** `yrdata.get("properties", None)`, then `.get("timeseries", None)` when
      that is not `None`, then the items a `for` loop would walk; `None` when
      either lookup answers `None`. */
  function TimeseriesOf(yrdata: Json): (r: Result<Option<seq<Json>>>)
    ensures r.Err? ==> r.error == AttributeError || r.error == TypeError
    ensures !yrdata.Obj? ==> r == Err(AttributeError)
    ensures var ts := Reach(yrdata, ["properties", "timeseries"]);
              ts.Some? && ts.value.Arr? ==> r == Ok(Some(ts.value.items))
  {
    match PyGet(yrdata, "properties")
    case Err(e) => Err(e)
    case Ok(prop) =>
      if prop.Null? then Ok(None)
      else
        match PyGet(prop, "timeseries")
        case Err(e) => Err(e)
        case Ok(ts) =>
          if ts.Null? then Ok(None)
          else
            match Iterate(ts)
            case Err(e) => Err(e)
            case Ok(items) => Ok(Some(items))
  }

  // ---------------------------------------------------------------------
  // test(): the first six entries with a symbol code
  // ---------------------------------------------------------------------

  /** One entry of the symbol walk: its `time` is looked up (the entry must be
      a dict), then `data.next_1_hours`; when that is present its
      `summary.symbol_code` is the symbol, if any. Every lookup on something
      that is not a dict raises `AttributeError`. */
  function Classify(entry: Json): (r: Result<Option<Json>>)
    ensures r.Err? ==> r.error == AttributeError
    ensures r.Ok? && r.value.Some? ==> r.value.value != Null
    ensures r == Ok(None) <==>
              entry.Obj? && Reach(entry, ["data"]).Some? && Reach(entry, ["data"]).value.Obj?
              && (Reach(entry, ["data", "next_1_hours"]).None?
                  || Reach(entry, ["data", "next_1_hours"]) == Some(Null)
                  || (Reach(entry, ["data", "next_1_hours", "summary"]).Some?
                      && Reach(entry, ["data", "next_1_hours", "summary"]).value.Obj?
                      && Reach(entry, ["data", "next_1_hours", "summary", "symbol_code"]) in {None, Some(Null)}))
    // it picks exactly the entries whose `symbol_code` is present and not `None`, with that code
    ensures r.Ok? && r.value.Some? <==>
              Reach(entry, ["data", "next_1_hours", "summary", "symbol_code"]).Some?
              && Reach(entry, ["data", "next_1_hours", "summary", "symbol_code"]) != Some(Null)
    ensures r.Ok? && r.value.Some? ==>
              Reach(entry, ["data", "next_1_hours", "summary", "symbol_code"]) == Some(r.value.value)
    // it raises when the entry or its `data` is not a dict, or when a
    // `next_1_hours` that is not `None` has no dict `summary`
    ensures r.Err? <==>
              !entry.Obj? || Reach(entry, ["data"]).None? || !Reach(entry, ["data"]).value.Obj?
              || (Reach(entry, ["data", "next_1_hours"]).Some?
                  && Reach(entry, ["data", "next_1_hours"]) != Some(Null)
                  && (Reach(entry, ["data", "next_1_hours", "summary"]).None?
                      || !Reach(entry, ["data", "next_1_hours", "summary"]).value.Obj?))
  {
    SymbolPath(entry);
    match PyGet(entry, "time")
    case Err(e) => Err(e)
    case Ok(_) =>
      match PyGet(PyGet(entry, "data").value, "next_1_hours")
      case Err(e) => Err(e)
      case Ok(next) =>
        if next.Null? then Ok(None)
        else
          assert ["summary"] + ["symbol_code"] == ["summary", "symbol_code"];
          GetPathReach(next, ["summary"], "symbol_code");
          match GetPath(next, ["summary", "symbol_code"])
          case Err(e) => Err(e)
          case Ok(code) => if code.Null? then Ok(None) else Ok(Some(code))
  }

  /** The lookups `Classify` chains, one key at a time. */
  lemma SymbolPath(entry: Json)
    ensures Reach(entry, ["data"]) == if entry.Obj? then Get(entry.fields, "data") else None
    ensures Reach(entry, ["data", "next_1_hours"])
            == match Reach(entry, ["data"]) case Some(Obj(f)) => Get(f, "next_1_hours") case _ => None
    ensures Reach(entry, ["data", "next_1_hours", "summary"])
            == match Reach(entry, ["data", "next_1_hours"]) case Some(Obj(f)) => Get(f, "summary") case _ => None
    ensures Reach(entry, ["data", "next_1_hours", "summary", "symbol_code"])
            == match Reach(entry, ["data", "next_1_hours", "summary"]) case Some(Obj(f)) => Get(f, "symbol_code") case _ => None
  {
    ReachSnoc(entry, [], "data");
    assert [] + ["data"] == ["data"];
    ReachSnoc(entry, ["data"], "next_1_hours");
    assert ["data"] + ["next_1_hours"] == ["data", "next_1_hours"];
    ReachSnoc(entry, ["data", "next_1_hours"], "summary");
    assert ["data", "next_1_hours"] + ["summary"] == ["data", "next_1_hours", "summary"];
    ReachSnoc(entry, ["data", "next_1_hours", "summary"], "symbol_code");
    assert ["data", "next_1_hours", "summary"] + ["symbol_code"] == ["data", "next_1_hours", "summary", "symbol_code"];
  }

  /** The walk of `test()` under a rule for one entry: every entry
      classified in order, the first exception stopping the walk, the
      entries with a symbol kept with it. */
  function Walk(classify: Json -> Result<Option<Json>>, items: seq<Json>): Result<seq<(Json, Json)>>
  {
    if items == [] then Ok([])
    else match classify(items[0])
      case Err(e) => Err(e)
      case Ok(p) =>
        match Walk(classify, items[1..])
        case Err(e) => Err(e)
        case Ok(rest) => Ok((if p.Some? then [(items[0], p.value)] else []) + rest)
  }

  /** Reference: the walk of `test()` with its own rule for one entry. */
  function Symbols(items: seq<Json>): Result<seq<(Json, Json)>>
  {
    Walk(Classify, items)
  }

  /** Walking two runs one after the other is walking them joined. */
  lemma {:induction false} WalkConcat(classify: Json -> Result<Option<Json>>, a: seq<Json>, b: seq<Json>)
    ensures Walk(classify, a + b)
            == match Walk(classify, a)
               case Err(e) => Err(e)
               case Ok(x) =>
                 match Walk(classify, b)
                 case Err(e) => Err(e)
                 case Ok(y) => Ok(x + y)
    decreases |a|
  {
    if a == [] {
      assert a + b == b;
      assert Walk(classify, a) == Ok([]);
      match Walk(classify, b)
      case Err(_) =>
      case Ok(y) => assert [] + y == y;
    } else {
      assert (a + b)[0] == a[0];
      assert (a + b)[1..] == a[1..] + b;
      WalkConcat(classify, a[1..], b);
      match classify(a[0])
      case Err(_) =>
      case Ok(p) =>
        var head := if p.Some? then [(a[0], p.value)] else [];
        match Walk(classify, a[1..])
        case Err(_) =>
        case Ok(x) =>
          match Walk(classify, b)
          case Err(_) =>
          case Ok(y) => assert head + (x + y) == (head + x) + y;
    }
  }

  /** Classifying one more entry extends the picks of the entries before it. */
  lemma SymbolsStep(items: seq<Json>, i: int)
    requires 0 <= i < |items|
    ensures Symbols(items[..i + 1])
            == match Symbols(items[..i])
               case Err(e) => Err(e)
               case Ok(x) =>
                 match Classify(items[i])
                 case Err(e) => Err(e)
                 case Ok(p) => Ok(x + (if p.Some? then [(items[i], p.value)] else []))
  {
    var one := [items[i]];
    WalkConcat(Classify, items[..i], one);
    assert items[..i] + one == items[..i + 1];
    assert one[0] == items[i] && one[1..] == [];
    assert Symbols(one[1..]) == Ok([]);
    match Classify(items[i])
    case Err(_) =>
    case Ok(p) =>
      var head := if p.Some? then [(items[i], p.value)] else [];
      assert head + [] == head;
      assert Symbols(one) == Ok(head);
  }

  /** A prefix that raises makes the whole walk raise the same; a prefix that
      does not picks a prefix of the whole walk's picks. */
  lemma SymbolsPrefix(items: seq<Json>, i: int)
    requires 0 <= i <= |items|
    ensures Symbols(items[..i]).Err? ==> Symbols(items) == Symbols(items[..i])
    ensures Symbols(items[..i]).Ok? && Symbols(items).Ok? ==>
              Symbols(items[..i]).value <= Symbols(items).value
  {
    WalkConcat(Classify, items[..i], items[i..]);
    assert items[..i] + items[i..] == items;
  }

  /** The first `n` elements, or all of them when there are fewer. */
  function Take<T>(s: seq<T>, n: nat): (r: seq<T>)
    ensures |r| <= n && r <= s
    ensures |s| <= n ==> r == s
  {
    if |s| <= n then s else s[..n]
  }

  /** Some prefix of the walk has `ImageCount` picks without raising: the
      walk of `test()` reaches its break before any later entry is read. */
  predicate FullBeforeRaise(items: seq<Json>)
  {
    exists i | 0 <= i <= |items| :: Symbols(items[..i]).Ok? && |Symbols(items[..i]).value| >= ImageCount
  }

  /** A walk that stops short of `ImageCount` picks, at the end of the
      entries or at the entry after `n` that raises, is never full. */
  lemma NotFullBeforeRaise(items: seq<Json>, n: int)
    requires 0 <= n <= |items|
    requires Symbols(items[..n]).Ok? && |Symbols(items[..n]).value| < ImageCount
    requires n == |items| || Symbols(items[..n + 1]).Err?
    ensures !FullBeforeRaise(items)
  {
    forall j | 0 <= j <= n && Symbols(items[..j]).Ok?
      ensures |Symbols(items[..j]).value| < ImageCount
    {
      SymbolsPrefix(items[..n], j);
      assert items[..n][..j] == items[..j];
    }
    forall j | n < j <= |items|
      ensures Symbols(items[..j]).Err?
    {
      SymbolsPrefix(items[..j], n + 1);
      assert items[..j][..n + 1] == items[..n + 1];
    }
  }

  /** The loop of `test()`: walks the entries, stops as soon as six symbols
      were found, and raises the first exception an entry before that point
      raises. Each pick is the entry and its symbol code, which the source
      then renders. */
  method SelectSymbols(items: seq<Json>) returns (r: Result<seq<(Json, Json)>>)
    ensures r.Ok? ==> |r.value| <= ImageCount
    ensures Symbols(items).Ok? ==> r == Ok(Take(Symbols(items).value, ImageCount))
    ensures r.Err? ==> Symbols(items) == r
    ensures r.Ok? && |r.value| < ImageCount ==> Symbols(items) == r
    // the picks are those of the walk up to where it stopped
    ensures r.Ok? ==> exists i | 0 <= i <= |items| :: Symbols(items[..i]) == r
    // six picks found before any raise are returned, whatever comes after
    ensures FullBeforeRaise(items) <==> r.Ok? && |r.value| == ImageCount
  {
    var picks: seq<(Json, Json)> := [];
    var i := 0;
    while i < |items|
      invariant 0 <= i <= |items|
      invariant |picks| <= ImageCount
      invariant Symbols(items[..i]) == Ok(picks)
    {
      if |picks| >= ImageCount {
        SymbolsPrefix(items, i);
        if Symbols(items).Ok? {
          var all := Symbols(items).value;
          assert picks <= all && |picks| == ImageCount;
          assert all[..ImageCount] == picks;
          assert Take(all, ImageCount) == picks;
        }
        assert Symbols(items[..i]) == Ok(picks);
        assert FullBeforeRaise(items) by {
          assert Symbols(items[..i]).Ok? && |Symbols(items[..i]).value| >= ImageCount;
        }
        return Ok(picks);
      }
      var p := Classify(items[i]);
      SymbolsStep(items, i);
      if p.Err? {
        SymbolsPrefix(items, i + 1);
        NotFullBeforeRaise(items, i);
        return Err(p.error);
      }
      if p.value.Some? {
        picks := picks + [(items[i], p.value.value)];
      } else {
        assert picks + [] == picks;
      }
      i := i + 1;
    }
    assert items[..i] == items;
    assert Symbols(items[..|items|]) == Ok(picks);
    if |picks| < ImageCount {
      NotFullBeforeRaise(items, |items|);
    } else {
      assert Symbols(items[..|items|]).Ok? && |Symbols(items[..|items|]).value| >= ImageCount;
    }
    return Ok(picks);
  }

  /** `test()` up to the save: after the walk the picked images are combined
      and saved, and with no pick at all the combined image is `None`, whose
      `save` raises `AttributeError`. Without a time series no entry is walked. */
  method Test(yrdata: Json) returns (r: Result<seq<(Json, Json)>>)
    ensures r.Ok? ==> 1 <= |r.value| <= ImageCount
    ensures TimeseriesOf(yrdata) == Ok(None) ==> r == Err(AttributeError)
    ensures TimeseriesOf(yrdata).Err? ==> r == Err(TimeseriesOf(yrdata).error)
    ensures r.Ok? ==> TimeseriesOf(yrdata).Ok? && TimeseriesOf(yrdata).value.Some?
    ensures r.Ok? ==> var items := TimeseriesOf(yrdata).value.value;
              exists i | 0 <= i <= |items| :: Symbols(items[..i]) == r
    ensures var ts := TimeseriesOf(yrdata);
              ts.Ok? && ts.value.Some? && Symbols(ts.value.value).Ok? ==>
                r == if Symbols(ts.value.value).value == [] then Err(AttributeError)
                     else Ok(Take(Symbols(ts.value.value).value, ImageCount))
    // six picks found before any raise are rendered and saved, whatever comes after
    ensures var ts := TimeseriesOf(yrdata);
              ts.Ok? && ts.value.Some? ==>
                (FullBeforeRaise(ts.value.value) <==> r.Ok? && |r.value| == ImageCount)
  {
    var ts := TimeseriesOf(yrdata);
    if ts.Err? {
      return Err(ts.error);
    }
    var picks: Result<seq<(Json, Json)>> := Ok([]);
    if ts.value.Some? {
      picks := SelectSymbols(ts.value.value);
    }
    if picks.Err? {
      return picks;
    }
    if picks.value == [] {
      return Err(AttributeError);
    }
    return picks;
  }

  // ---------------------------------------------------------------------
  // test4plot(): the instant details of every entry, keyed by time
  // ---------------------------------------------------------------------

  /** One entry of the plot walk: `time` parsed with `%Y-%m-%dT%H:%M:%S%z`,
      then `data.get("instant").get("details")`. Aware datetimes are equal
      dict keys exactly when they denote the same instant, so the key is
      the instant. */
  function EntryOf(entry: Json): (r: Result<(int, Json)>)
    ensures r.Ok? ==> entry.Obj?
    ensures r.Err? ==> r.error in {AttributeError, TypeError, ValueError}
    ensures r.Ok? ==> Strptime(PyGet(entry, "time").value).Ok?
                      && Instant(Strptime(PyGet(entry, "time").value).value) == Some(r.value.0)
    // it parses exactly when its time does and `data.instant` is a dict
    ensures r.Ok? <==> entry.Obj? && Strptime(PyGet(entry, "time").value).Ok?
                       && Reach(entry, ["data", "instant"]).Some? && Reach(entry, ["data", "instant"]).value.Obj?
    // the value stored is the instant's `details`, or `None` when it has none
    ensures r.Ok? ==> r.value.1 == Get(Reach(entry, ["data", "instant"]).value.fields, "details").GetOr(Null)
  {
    InstantDetailsPath(entry);
    match PyGet(entry, "time")
    case Err(e) => Err(e)
    case Ok(time) =>
      match Strptime(time)
      case Err(e) => Err(e)
      case Ok(t) =>
        match GetPath(PyGet(entry, "data").value, ["instant", "details"])
        case Err(e) => Err(e)
        case Ok(details) => Ok((Instant(t).value, details))
  }

  /** `entry.get("data").get("instant").get("details")` on a dict entry
      answers the instant's details exactly when `data.instant` is a dict. */
  lemma InstantDetailsPath(entry: Json)
    ensures entry.Obj? ==>
              GetPath(PyGet(entry, "data").value, ["instant", "details"])
              == match Reach(entry, ["data", "instant"])
                 case Some(Obj(f)) => Ok(Get(f, "details").GetOr(Null))
                 case _ => Err(AttributeError)
  {
    if entry.Obj? {
      var data := PyGet(entry, "data").value;
      assert ["instant", "details"] == ["instant"] + ["details"];
      GetPathReach(data, ["instant"], "details");
      assert ["data", "instant"][1..] == ["instant"];
      assert ["instant"][1..] == [];
    }
  }

  /** Reference: every entry parsed in order, the first exception ending
      the walk. */
  function Entries(items: seq<Json>): (r: Result<seq<(int, Json)>>)
  {
    MapAll(EntryOf, items)
  }

  /** A loop that parses each element into a key and a value and assigns
      them into a dict, ending at the first element that raises. */
  method AssignAll<A, K(==, !new), V>(f: A -> Result<(K, V)>, xs: seq<A>) returns (r: Result<Dict<K, V>>)
    ensures r.Err? <==> MapAll(f, xs).Err?
    ensures r.Err? ==> r.error == MapAll(f, xs).error
    ensures r.Ok? ==> Built(MapAll(f, xs).value, r.value)
  {
    var res: Dict<K, V> := [];
    ghost var es: seq<(K, V)> := [];
    var i := 0;
    while i < |xs|
      invariant 0 <= i <= |xs|
      invariant MapAll(f, xs[..i]) == Ok(es)
      invariant Built(es, res)
    {
      var e := f(xs[i]);
      if e.Err? {
        MapAllStep(f, xs, i);
        MapAllPrefix(f, xs, i + 1);
        return Err(e.error);
      }
      AssignStep(f, xs, i, es, res);
      res := Put(res, e.value.0, e.value.1);
      es := es + [e.value];
      i := i + 1;
    }
    assert xs[..i] == xs;
    return Ok(res);
  }

  /** One more element that parses extends both the parsed pairs and the
      dict they build. */
  lemma AssignStep<A, K(!new), V>(f: A -> Result<(K, V)>, xs: seq<A>, i: int, es: seq<(K, V)>, d: Dict<K, V>)
    requires 0 <= i < |xs| && f(xs[i]).Ok?
    requires MapAll(f, xs[..i]) == Ok(es) && Built(es, d)
    ensures MapAll(f, xs[..i + 1]) == Ok(es + [f(xs[i]).value])
    ensures Built(es + [f(xs[i]).value], Put(d, f(xs[i]).value.0, f(xs[i]).value.1))
  {
    MapAllStep(f, xs, i);
    var (k, v) := f(xs[i]).value;
    BuiltStep(es, d, k, v);
  }

  /** The loop of `test4plot()`. Its guard `cnt >= 6` never holds because
      `cnt` stays 0, so every entry is visited: the first bad entry raises,
      and otherwise the instants and details are assigned into a dict in
      entry order, so each instant ends up with the details of its last
      entry, in order of first appearance. */
  method PlotDetails(items: seq<Json>) returns (r: Result<Dict<int, Json>>)
    ensures r.Err? <==> Entries(items).Err?
    ensures r.Err? ==> r.error == Entries(items).error
    ensures r.Ok? ==> Built(Entries(items).value, r.value)
  {
    r := AssignAll(EntryOf, items);
  }

  /** `test4plot()`: `None` without a time series, otherwise the dict of
      instant details, which holds every entry's instant however many there are. */
  method Test4Plot(yrdata: Json) returns (r: Result<Option<Dict<int, Json>>>)
    ensures TimeseriesOf(yrdata).Err? ==> r == Err(TimeseriesOf(yrdata).error)
    ensures TimeseriesOf(yrdata) == Ok(None) ==> r == Ok(None)
    ensures var ts := TimeseriesOf(yrdata);
              ts.Ok? && ts.value.Some? ==>
                && (r.Err? <==> Entries(ts.value.value).Err?)
                && (r.Err? ==> r.error == Entries(ts.value.value).error)
                && (r.Ok? ==> r.value.Some? && Built(Entries(ts.value.value).value, r.value.value))
  {
    var ts := TimeseriesOf(yrdata);
    if ts.Err? {
      return Err(ts.error);
    }
    if ts.value.None? {
      return Ok(None);
    }
    var d := PlotDetails(ts.value.value);
    if d.Err? {
      return Err(d.error);
    }
    return Ok(Some(d.value));
  }

  /** When every entry of the series parses, the plot dict holds each
      entry's instant, and the instant of the last entry that has it maps to
      that entry's details. */
  lemma PlotKeepsEveryInstant(items: seq<Json>, d: Dict<int, Json>)
    requires Entries(items).Ok? && Built(Entries(items).value, d)
    ensures forall j | 0 <= j < |items| :: EntryOf(items[j]).Ok? && EntryOf(items[j]).value.0 in Keys(d)
  {
    var es := Entries(items).value;
    MapAllAt(EntryOf, items);
    forall j | 0 <= j < |items| ensures EntryOf(items[j]).value.0 in Keys(d) {
      KeyListAt(es, j);
    }
  }
}

=== FILE: stamps.dfy ===
/** Python `datetime` values as calendar records, and the fixed text format
    `%Y-%m-%dT%H:%M:%S%z` used to store them. */
module Stamps {
  import opened Base
  import opened Text
  import opened JsonValues

  /** A calendar date and time; `offset` is the UTC offset in minutes, or
      `None` for a naive datetime. Sub-second parts are always zero here. */
  datatype Stamp = Stamp(year: int, month: int, day: int,
                         hour: int, minute: int, second: int,
                         offset: Option<int>)

  predicate IsLeap(y: int)
  {
    y % 4 == 0 && (y % 100 != 0 || y % 400 == 0)
  }

  function DaysIn(y: int, m: int): int
    requires 1 <= m <= 12
  {
    if m == 2 then (if IsLeap(y) then 29 else 28)
    else if m == 4 || m == 6 || m == 9 || m == 11 then 30
    else 31
  }

  /** The ranges the `datetime` constructor enforces; a `timezone` offset
      must lie strictly within one day. */
  predicate Valid(s: Stamp)
  {
    && 1 <= s.year <= 9999
    && 1 <= s.month <= 12
    && 1 <= s.day <= DaysIn(s.year, s.month)
    && 0 <= s.hour < 24
    && 0 <= s.minute < 60
    && 0 <= s.second < 60
    && (s.offset.Some? ==> -1440 < s.offset.value < 1440)
  }

  type DateTime = s: Stamp | Valid(s) witness Stamp(1, 1, 1, 0, 0, 0, None)

  /** Days from 0001-01-01 to the start of `m`/`y`, proleptic Gregorian. */
  function DaysBefore(y: int, m: int): int
    requires 1 <= m <= 12
    decreases m
  {
    if m == 1 then 365 * (y - 1) + (y - 1) / 4 - (y - 1) / 100 + (y - 1) / 400
    else DaysBefore(y, m - 1) + DaysIn(y, m - 1)
  }

  /** Seconds since 0001-01-01T00:00:00 on the datetime's own wall clock. */
  function WallSeconds(d: DateTime): int
  {
    ((DaysBefore(d.year, d.month) + d.day - 1) * 24 + d.hour) * 3600 + d.minute * 60 + d.second
  }

  /** The absolute instant of an aware datetime, in seconds on the UTC clock;
      a naive datetime has none. Aware datetimes compare by this value. */
  function Instant(d: DateTime): Option<int>
  {
    match d.offset
    case None => None
    case Some(o) => Some(WallSeconds(d) - o * 60)
  }

  /** strftime's `%z`: `+HHMM` or `-HHMM`, empty for a naive datetime. */
  function OffsetText(offset: Option<int>): string
  {
    match offset
    case None => ""
    case Some(o) =>
      var a := if o < 0 then -o else o;
      (if o < 0 then "-" else "+") + Padded(a / 60, 2) + Padded(a % 60, 2)
  }

  /** The date and time fields `%Y-%m-%dT%H:%M:%S`, nineteen characters. */
  function ClockText(d: DateTime): (t: string)
    ensures |t| == 19
  {
    Padded(d.year, 4) + "-" + Padded(d.month, 2) + "-" + Padded(d.day, 2) + "T"
    + Padded(d.hour, 2) + ":" + Padded(d.minute, 2) + ":" + Padded(d.second, 2)
  }

  /** `d.strftime("%Y-%m-%dT%H:%M:%S%z")`: an aware datetime's text reads
      back as the same datetime; a naive one's has no zone and does not. */
  function Format(d: DateTime): (t: string)
    ensures d.offset.Some? ==> Parse(t) == Ok(d)
    ensures d.offset.None? ==> |t| == 19 && Parse(t).Err?
  {
    if d.offset.Some? then FormatParseRoundTrip(d); ClockText(d) + OffsetText(d.offset)
    else ClockText(d) + OffsetText(d.offset)
  }

  /** The zone field `%z` accepts: `Z`, or a sign, two hour digits, an
      optional colon and two minute digits of which the first is at most 5. */
  function ParseZone(z: string): (r: Option<int>)
  {
    if z == "Z" then Some(0)
    else if (|z| == 5 || (|z| == 6 && z[3] == ':')) && (z[0] == '+' || z[0] == '-') then
      var hh := z[1..3];
      var mm := z[|z| - 2..];
      if AllDigits(hh) && AllDigits(mm) && mm[0] <= '5' then
        var minutes := ValueOf(hh) * 60 + ValueOf(mm);
        Some(if z[0] == '-' then -minutes else minutes)
      else None
    else None
  }

  /** The six numeric fields of `%Y-%m-%dT%H:%M:%S`, before range checks. */
  datatype Fields = Fields(year: nat, month: nat, day: nat, hour: nat, minute: nat, second: nat)

  /** Reads the nineteen characters of `%Y-%m-%dT%H:%M:%S`, zero-padded.
      `strptime` matches the format ignoring case, so `t` is read as `T`. */
  function ParseClock(h: string): Option<Fields>
    requires |h| == 19
  {
    if h[4] != '-' || h[7] != '-' || (h[10] != 'T' && h[10] != 't') || h[13] != ':' || h[16] != ':' then None
    else if !(AllDigits(h[0..4]) && AllDigits(h[5..7]) && AllDigits(h[8..10])
              && AllDigits(h[11..13]) && AllDigits(h[14..16]) && AllDigits(h[17..19])) then None
    else Some(Fields(ValueOf(h[0..4]), ValueOf(h[5..7]), ValueOf(h[8..10]),
                     ValueOf(h[11..13]), ValueOf(h[14..16]), ValueOf(h[17..19])))
  }

  /** `datetime.strptime(t, "%Y-%m-%dT%H:%M:%S%z")` for the zero-padded form;
      a mismatch or an out-of-range field raises `ValueError`. */
  function Parse(t: string): (r: Result<DateTime>)
    ensures r.Err? ==> r.error == ValueError
    ensures r.Ok? ==> r.value.offset.Some?
  {
    if |t| < 20 then Err(ValueError)
    else match ParseClock(t[..19])
      case None => Err(ValueError)
      case Some(f) =>
        var zone := ParseZone(t[19..]);
        var s := Stamp(f.year, f.month, f.day, f.hour, f.minute, f.second, zone);
        if zone.Some? && Valid(s) then Ok(s) else Err(ValueError)
  }

  /** `datetime.strptime(v, "%Y-%m-%dT%H:%M:%S%z")` on any Python value:
      anything but a string raises `TypeError`. */
  function Strptime(v: Json): (r: Result<DateTime>)
    ensures r.Err? ==> (r.error == TypeError <==> !v.Str?)
    ensures r.Err? ==> r.error == TypeError || r.error == ValueError
    ensures r.Ok? ==> v.Str? && r.value.offset.Some?
  {
    if v.Str? then Parse(v.s) else Err(TypeError)
  }

  /** Where each field of a `%Y-%m-%dT%H:%M:%S` text sits, whatever the
      field texts are, given their widths. */
  lemma ClockShape(y: string, mo: string, d: string, h: string, mi: string, s: string)
    requires |y| == 4 && |mo| == 2 && |d| == 2 && |h| == 2 && |mi| == 2 && |s| == 2
    ensures var t := y + "-" + mo + "-" + d + "T" + h + ":" + mi + ":" + s;
      && t[0..4] == y && t[4] == '-'
      && t[5..7] == mo && t[7] == '-'
      && t[8..10] == d && t[10] == 'T'
      && t[11..13] == h && t[13] == ':'
      && t[14..16] == mi && t[16] == ':'
      && t[17..19] == s
  {
  }

  /** Where each field of `ClockText` sits. */
  lemma ClockLayout(d: DateTime)
    ensures var t := ClockText(d);
      && t[0..4] == Padded(d.year, 4) && t[4] == '-'
      && t[5..7] == Padded(d.month, 2) && t[7] == '-'
      && t[8..10] == Padded(d.day, 2) && t[10] == 'T'
      && t[11..13] == Padded(d.hour, 2) && t[13] == ':'
      && t[14..16] == Padded(d.minute, 2) && t[16] == ':'
      && t[17..19] == Padded(d.second, 2)
  {
    ClockShape(Padded(d.year, 4), Padded(d.month, 2), Padded(d.day, 2),
               Padded(d.hour, 2), Padded(d.minute, 2), Padded(d.second, 2));
  }

  lemma ClockRoundTrip(d: DateTime)
    ensures ParseClock(ClockText(d)) == Some(Fields(d.year, d.month, d.day, d.hour, d.minute, d.second))
  {
    ClockLayout(d);
    PaddedRoundTrip(d.year, 4);
    PaddedRoundTrip(d.month, 2);
    PaddedRoundTrip(d.day, 2);
    PaddedRoundTrip(d.hour, 2);
    PaddedRoundTrip(d.minute, 2);
    PaddedRoundTrip(d.second, 2);
  }

  /** Where the sign, hours and minutes of a `+HHMM` text sit. */
  lemma ZoneShape(sign: string, hh: string, mm: string)
    requires |sign| == 1 && |hh| == 2 && |mm| == 2
    ensures var z := sign + hh + mm;
      && |z| == 5 && z[0] == sign[0] && z[1..3] == hh && z[|z| - 2..] == mm
  {
  }

  /** The tens digit of a minute count is at most 5. */
  lemma MinuteTens(n: nat)
    requires n < 60
    ensures Padded(n, 2)[0] <= '5'
  {
    assert Padded(n, 2) == Padded(n / 10, 1) + [DigitChar(n % 10)];
    assert Padded(n / 10, 1) == Padded(n / 100, 0) + [DigitChar(n / 10 % 10)];
  }

  /** A sign, two hour digits and two minute digits whose first is at most
      5 read as that many minutes, negated for `-`. */
  lemma ZoneRead(sign: string, hh: string, mm: string)
    requires sign == "-" || sign == "+"
    requires |hh| == 2 && |mm| == 2 && AllDigits(hh) && AllDigits(mm) && mm[0] <= '5'
    ensures ParseZone(sign + hh + mm)
            == Some(if sign == "-" then -(ValueOf(hh) * 60 + ValueOf(mm)) else ValueOf(hh) * 60 + ValueOf(mm))
  {
    ZoneShape(sign, hh, mm);
  }

  /** The offset field written by `Format` reads back as the same offset. */
  lemma OffsetRoundTrip(o: int)
    requires -1440 < o < 1440
    ensures ParseZone(OffsetText(Some(o))) == Some(o)
  {
    var a := if o < 0 then -o else o;
    var sign := if o < 0 then "-" else "+";
    var hh := Padded(a / 60, 2);
    var mm := Padded(a % 60, 2);
    assert OffsetText(Some(o)) == sign + hh + mm;
    PaddedRoundTrip(a / 60, 2);
    PaddedRoundTrip(a % 60, 2);
    MinuteTens(a % 60);
    ZoneRead(sign, hh, mm);
    assert a / 60 * 60 + a % 60 == a;
  }

  /** The date, time and zone fields of an aware datetime read back as the
      same datetime. */
  lemma FormatParseRoundTrip(d: DateTime)
    requires d.offset.Some?
    ensures Parse(ClockText(d) + OffsetText(d.offset)) == Ok(d)
  {
    var t := ClockText(d) + OffsetText(d.offset);
    ClockRoundTrip(d);
    OffsetRoundTrip(d.offset.value);
    assert t[..19] == ClockText(d);
    assert t[19..] == OffsetText(d.offset);
  }
}

=== FILE: text.dfy ===
/** Decimal digits and the splitting of text at a separator. */
module Text {

  predicate IsDigit(c: char)
  {
    '0' <= c <= '9'
  }

  predicate AllDigits(s: string)
  {
    forall i :: 0 <= i < |s| ==> IsDigit(s[i])
  }

  function DigitChar(d: nat): (c: char)
    requires d < 10
    ensures IsDigit(c)
  {
    (48 + d) as char
  }

  function DigitValue(c: char): (d: nat)
    requires IsDigit(c)
    ensures d < 10
  {
    c as int - 48
  }

  function Pow10(n: nat): (p: nat)
    ensures p >= 1
  {
    if n == 0 then 1 else 10 * Pow10(n - 1)
  }

  /** The number written by a string of decimal digits. */
  function ValueOf(s: string): nat
    requires AllDigits(s)
  {
    if s == [] then 0 else ValueOf(s[..|s| - 1]) * 10 + DigitValue(s[|s| - 1])
  }

  /** `n` in exactly `width` digits, zero-padded on the left (strftime's `%02d`,
      `%04d`); only the low `width` digits survive. */
  function Padded(n: nat, width: nat): (s: string)
    ensures |s| == width
    ensures AllDigits(s)
  {
    if width == 0 then "" else Padded(n / 10, width - 1) + [DigitChar(n % 10)]
  }

  /** Reading a zero-padded field back gives the number that was written,
      provided it fits in the field. */
  lemma {:induction false} PaddedRoundTrip(n: nat, width: nat)
    requires n < Pow10(width)
    ensures ValueOf(Padded(n, width)) == n
  {
    if width > 0 {
      var s := Padded(n, width);
      assert s[..|s| - 1] == Padded(n / 10, width - 1);
      PaddedRoundTrip(n / 10, width - 1);
    }
  }

  /** Python's `str(n)` for a natural number: its decimal digits, no padding. */
  function NatText(n: nat): (s: string)
    ensures |s| > 0 && AllDigits(s)
  {
    if n < 10 then [DigitChar(n)] else NatText(n / 10) + [DigitChar(n % 10)]
  }

  /** Python's `str(i)` for an integer. */
  function IntText(i: int): string
  {
    if i < 0 then "-" + NatText(-i) else NatText(i)
  }

  lemma {:induction false} NatTextRoundTrip(n: nat)
    ensures ValueOf(NatText(n)) == n
  {
    var s := NatText(n);
    if n >= 10 {
      assert s[..|s| - 1] == NatText(n / 10);
      NatTextRoundTrip(n / 10);
    }
  }

  /** The position of the first `c` in `s`. */
  function IndexOf(s: string, c: char): (i: nat)
    requires c in s
    ensures i < |s| && s[i] == c && c !in s[..i]
  {
    if s[0] == c then 0 else 1 + IndexOf(s[1..], c)
  }

  /** `sep.join(parts)`. */
  function Join(parts: seq<string>, sep: char): string
    requires |parts| > 0
  {
    if |parts| == 1 then parts[0] else parts[0] + [sep] + Join(parts[1..], sep)
  }

  /** `s.split(sep)`. */
  function Split(s: string, sep: char): (parts: seq<string>)
    ensures |parts| > 0
    decreases |s|
  {
    if sep !in s then [s]
    else
      var i := IndexOf(s, sep);
      [s[..i]] + Split(s[i + 1..], sep)
  }

  /** The first `c` after a prefix free of `c` is the one right after that prefix. */
  lemma IndexAfterPrefix(p: string, c: char, rest: string)
    requires c !in p
    ensures c in p + [c] + rest
    ensures IndexOf(p + [c] + rest, c) == |p|
  {
    var s := p + [c] + rest;
    assert s[|p|] == c;
  }

  /** Splitting a join recovers the parts, when no part holds the separator. */
  lemma {:induction false} SplitJoin(parts: seq<string>, sep: char)
    requires |parts| > 0
    requires forall i :: 0 <= i < |parts| ==> sep !in parts[i]
    ensures Split(Join(parts, sep), sep) == parts
  {
    if |parts| > 1 {
      var rest := Join(parts[1..], sep);
      var s := parts[0] + [sep] + rest;
      IndexAfterPrefix(parts[0], sep, rest);
      assert s[..|parts[0]|] == parts[0];
      assert s[|parts[0]| + 1..] == rest;
      SplitJoin(parts[1..], sep);
    }
  }
}

=== FILE: urls.dfy ===
/** The forecast request URL, and a reader for it that recovers the query. */
module Urls {
  import opened Base
  import opened Text

  /** The configured point. Latitude and longitude are kept as the text of the
      values rounded to four decimals; altitude as its text, if configured. */
  datatype Site = Site(lat: string, lon: string, altitude: Option<string>)

  const ForecastBase := "https://api.met.no/weatherapi/locationforecast/2.0/"

  /** `get_url(datatype)`; the `lang` and `interval` parameters are unused.
      The URL is the forecast base, the data type, `?`, and the query
      parameters joined with `&`. */
  function GetUrl(site: Site, kind: string): (url: string)
    ensures |url| >= |ForecastBase| && url[..|ForecastBase|] == ForecastBase
    ensures url[|ForecastBase|..] == kind + ['?'] + Join(QueryParts(site), '&')
  {
    QueryIsJoin(site);
    var query := "lat=" + site.lat + "&lon=" + site.lon
                 + (if site.altitude.Some? then "&altitude=" + site.altitude.value else "");
    ForecastBase + kind + "?" + query
  }

  /** A URL read back: the path segment after the base and the query's
      `name=value` pairs in order. */
  datatype UrlParts = UrlParts(kind: string, query: seq<(string, string)>)

  /** A `name=value` pair, split at the first `=`. */
  function ParamOf(p: string): (string, string)
  {
    if '=' in p then (p[..IndexOf(p, '=')], p[IndexOf(p, '=') + 1..]) else (p, "")
  }

  function Params(ps: seq<string>): (r: seq<(string, string)>)
    ensures |r| == |ps|
  {
    if ps == [] then [] else [ParamOf(ps[0])] + Params(ps[1..])
  }

  /** Reads a URL under the forecast base: the part before the first `?` is the
      data type, the rest is split at `&` into parameters. */
  function ParseUrl(url: string): Option<UrlParts>
  {
    if |url| < |ForecastBase| || url[..|ForecastBase|] != ForecastBase then None
    else
      var rest := url[|ForecastBase|..];
      if '?' !in rest then None
      else
        var i := IndexOf(rest, '?');
        Some(UrlParts(rest[..i], Params(Split(rest[i + 1..], '&'))))
  }

  /** The query `get_url` writes, as its parts. */
  function QueryParts(site: Site): seq<string>
  {
    ["lat=" + site.lat, "lon=" + site.lon]
    + (if site.altitude.Some? then ["altitude=" + site.altitude.value] else [])
  }

  function Expected(site: Site): seq<(string, string)>
  {
    [("lat", site.lat), ("lon", site.lon)]
    + (if site.altitude.Some? then [("altitude", site.altitude.value)] else [])
  }

  lemma ParamOfName(name: string, value: string)
    requires '=' !in name
    ensures ParamOf(name + "=" + value) == (name, value)
  {
    var p := name + "=" + value;
    assert p == name + ['='] + value;
    IndexAfterPrefix(name, '=', value);
    assert p[..|name|] == name;
    assert p[|name| + 1..] == value;
  }

  lemma QueryIsJoin(site: Site)
    ensures "lat=" + site.lat + "&lon=" + site.lon
            + (if site.altitude.Some? then "&altitude=" + site.altitude.value else "")
            == Join(QueryParts(site), '&')
  {
    var q := QueryParts(site);
    var lat := "lat=" + site.lat;
    var lon := "lon=" + site.lon;
    if site.altitude.Some? {
      var alt := "altitude=" + site.altitude.value;
      assert q == [lat, lon, alt];
      assert q[1..] == [lon, alt];
      assert q[1..][1..] == [alt];
      assert Join(q[1..][1..], '&') == alt;
      assert Join(q[1..], '&') == lon + "&" + alt;
      assert Join(q, '&') == lat + "&" + (lon + "&" + alt);
    } else {
      assert q == [lat, lon];
      assert q[1..] == [lon];
      assert Join(q, '&') == lat + "&" + lon;
    }
  }

  lemma ParamsOfTwo(p: string, q: string)
    ensures Params([p, q]) == [ParamOf(p), ParamOf(q)]
  {
    assert [p, q][1..] == [q];
    assert [q][1..] == [];
  }

  lemma ParamsOfThree(p: string, q: string, r: string)
    ensures Params([p, q, r]) == [ParamOf(p), ParamOf(q), ParamOf(r)]
  {
    assert [p, q, r][1..] == [q, r];
    ParamsOfTwo(q, r);
  }

  /** Each query part splits at its `=` into the expected pair. */
  lemma ParamsOfParts(site: Site)
    ensures Params(QueryParts(site)) == Expected(site)
  {
    var lat := "lat=" + site.lat;
    var lon := "lon=" + site.lon;
    ParamOfName("lat", site.lat);
    assert "lat" + "=" + site.lat == lat;
    ParamOfName("lon", site.lon);
    assert "lon" + "=" + site.lon == lon;
    if site.altitude.Some? {
      var alt := "altitude=" + site.altitude.value;
      ParamOfName("altitude", site.altitude.value);
      assert "altitude" + "=" + site.altitude.value == alt;
      assert QueryParts(site) == [lat, lon, alt];
      ParamsOfThree(lat, lon, alt);
    } else {
      assert QueryParts(site) == [lat, lon];
      ParamsOfTwo(lat, lon);
    }
  }

  /** Splitting the joined query at `&` and each part at `=` gives the
      expected pairs. */
  lemma QueryRoundTrip(site: Site)
    requires '&' !in site.lat && '&' !in site.lon
    requires site.altitude.Some? ==> '&' !in site.altitude.value
    ensures Params(Split(Join(QueryParts(site), '&'), '&')) == Expected(site)
  {
    var parts := QueryParts(site);
    forall i | 0 <= i < |parts| ensures '&' !in parts[i] {
    }
    SplitJoin(parts, '&');
    ParamsOfParts(site);
  }

  /** Reading the URL `get_url` builds gives back the data type and the
      query parameters lat, lon and (when set) altitude, in that order,
      provided none of the texts holds a character that delimits them. */
  lemma {:induction false} UrlRoundTrip(site: Site, kind: string)
    requires '?' !in kind
    requires '&' !in site.lat && '&' !in site.lon
    requires site.altitude.Some? ==> '&' !in site.altitude.value
    ensures ParseUrl(GetUrl(site, kind)) == Some(UrlParts(kind, Expected(site)))
  {
    var url := GetUrl(site, kind);
    var query := Join(QueryParts(site), '&');
    var rest := url[|ForecastBase|..];
    IndexAfterPrefix(kind, '?', query);
    assert rest[..|kind|] == kind;
    assert rest[|kind| + 1..] == query;
    QueryRoundTrip(site);
  }
}
